=== FILE: README.md ===
# ImageSH ephemeral image store — a Dafny model

ImageSH lets one signed-in operator upload an image and get a short share
link. The image disappears after a retention window the operator chooses.
This project models the image store at its core and the code right around it:

- the keyed store with expiry behind both admin routes, and the client policy
  of `src/lib/redis.ts`: a lazily created singleton client, connect only when
  not open, `setWithExpiry`, and the reconnect back-off (`redis.dfy`);
- the upload route. It checks the session, then that a file is present, then
  its size, then its type. It maps the retention label to a TTL, builds the
  metadata record, and writes `image:<id>:data` and then `image:<id>:binary`
  with the same TTL (`upload_route.dfy`);
- the list route. It scans `image:*:data`, skips keys that vanished after the
  scan, and sorts newest first in place (`list_route.dfy`);
- the key namespace and the metadata record both routes share (`records.dfy`);
- the uploader form: file checks, the default name with its extension
  stripped, picking a file out of a paste, the trimmed name field, and the
  form reset (`image_uploader.dfy`);
- the list component: the remaining-time text, the size unit, and the guards
  of the delete and rename dialogs (`image_list.dfy`). Both copies of the
  component have the same helpers, so these are defined once. The older copy
  (`image-sharing-app/src/components/ImageList.tsx`) only has the delete dialog;
- the credentials check and the `jwt`/`session` callbacks (`auth.dfy`);
- the JavaScript string operations these rely on: `trim`, `indexOf`, and
  decimal rendering (`js_strings.dfy`).

The backend is a map from key to `Entry(value, expiresAt)`. Times are integer
milliseconds and are passed in explicitly. A key can be read up to and including its
expiry instant; the backend drops it only once its clock is past that instant. A SET with `EX ttl` at instant `now`
stores the expiry `now + ttl * 1000`. JSON is abstracted away: a stored
record's JSON text is kept as the record itself, and any other text as
`Text(s)`. Parsing gives back the record, and parsing plain text fails.

Each SET's `EX ttl` counts from the backend's clock when that SET arrives.
The two writes of one upload arrive one after the other, so the payload key
expires a little later than its metadata key.

The model follows the code where its behaviour is weaker than an ephemeral
store might be expected to give:

- The upload route writes the metadata key first and the binary key second,
  and it does not roll back. If the second write fails, the metadata stays
  readable but its payload does not exist.
  `FailedPayloadWriteBreaksPairing` shows this state. When both writes
  succeed, the payload outlives its metadata (`CommittedKeepsPairing`), so a
  readable record always has a readable payload
  (`PairedMetadataImpliesPayload`).
- The stored `size` is twice the uploaded file's size, as the code has it (a
  TODO in the code). It is not the payload's true length.
- The list route skips a key whose value has vanished or is the empty string.
  It answers 500 when any other value does not parse; it does not skip such a
  record.
- A reconnect delay is `min(retries * 100, 3000)` ms. It is linear, not
  exponential, and the 3000 ms cap is never reached before the client gives up
  (`CapNeverBinds`).

## Model

| member | source | states |
|---|---|---|
| `Redis.ReconnectStrategy` | src/lib/redis.ts:23-29 | gives up exactly when `retries > 10`; otherwise the delay is at most 3000 ms |
| `Redis.CapNeverBinds` | src/lib/redis.ts:24-28 | for every accepted retry count the delay is exactly `retries * 100` ms, at most 1000 ms, so the 3000 ms cap never applies |
| `Redis.DelayMonotone` | src/lib/redis.ts:28 | the delay never decreases as the retry count grows |
| `Redis.TotalBackoffClosedForm` | src/lib/redis.ts:23-29 | the waits over retries 0..n-1 add up to `50 n (n-1)` ms while retries are accepted and to 5500 ms in all once the client gives up |
| `Redis.Lookup` | image-sharing-app/src/app/api/admin/images/route.ts:20 | `GET`: the value of a key that is present and whose expiry instant has not passed (it is still served at that instant); `PutThenLookup` and `ExpiryIsFinal` state its behaviour |
| `Redis.Put` | src/lib/redis.ts:50 | `SET key value EX ttl`; `PutThenLookup` states what it reads back |
| `Redis.Client.Connect` | src/lib/redis.ts:42 | afterwards the client is open and `connect` has been called once more |
| `Redis.PutThenLookup` | src/lib/redis.ts:48-51 | after `SET key value EX ttl` the key reads back its value up to and including the instant `ttl` seconds later, and not after; every other key reads as before |
| `Redis.ExpiryIsFinal` | src/lib/redis.ts:50 | a key that has expired never becomes visible again later |
| `Redis.Backend.constructor` | src/lib/redis.ts:11 | module load: no client exists yet |
| `Redis.Backend.GetRedisClient` | src/lib/redis.ts:17-36 | creates a closed client on the first call only; later calls return the same client and create nothing; the store is untouched |
| `Redis.Backend.ConnectRedis` | src/lib/redis.ts:39-45 | afterwards the client is open; `connect` runs only when the client was not open, and an already open client is left unchanged |
| `Redis.Backend.SetWithExpiry` | src/lib/redis.ts:48-51 | when the backend acknowledges, exactly that key gets that value and expiry `now + ttl*1000` and no other key changes; otherwise nothing is written and the call fails |
| `Redis.Backend.ScanDataKeys` | image-sharing-app/src/app/api/admin/images/route.ts:15 | returns each live key matching `image:*:data` exactly once and no other key |
| `Records.DataKey` | src/app/api/admin/upload/route.ts:83 | `image:<id>:data`; `KeysInjective` and `DataKeyNeverBinaryKey` state that it names one image and never a payload |
| `Records.BinaryKey` | src/app/api/admin/upload/route.ts:84 | `image:<id>:binary`; `KeysInjective` and `BinaryKeyNotMatched` state its separation from the metadata keys |
| `Records.MatchesDataGlob` | image-sharing-app/src/app/api/admin/images/route.ts:15 | the glob `image:*:data`; `GlobMatchesExactlyDataKeys` states that it matches exactly the metadata keys |
| `Records.DataKeyMatches` | image-sharing-app/src/app/api/admin/images/route.ts:15 | every `image:<id>:data` matches the glob, and the glob's `*` is the id |
| `Records.GlobMatchesExactlyDataKeys` | image-sharing-app/src/app/api/admin/images/route.ts:15 | a key matches `image:*:data` if and only if it is `image:<id>:data` for some id, the empty id included |
| `Records.BinaryKeyNotMatched` | image-sharing-app/src/app/api/admin/images/route.ts:15 | no `image:<id>:binary` key matches the metadata glob |
| `Records.DataKeyNeverBinaryKey` | src/app/api/admin/upload/route.ts:83-84 | a metadata key is never a binary key, whatever the two ids |
| `Records.KeysInjective` | src/app/api/admin/upload/route.ts:83-84 | different ids have different metadata keys and different binary keys |
| `UploadRoute.TtlSeconds` | src/app/api/admin/upload/route.ts:56-67 | every label gets one of the table's positive TTLs; a label outside the table gets 86400 s |
| `UploadRoute.TtlTableValues` | src/app/api/admin/upload/route.ts:56-67 | the eight labels map to 7200, 86400, 259200, 604800, 2592000, 7776000, 15552000 and 31536000 s; the table has exactly these keys; any other label gets the `1d` TTL |
| `UploadRoute.TtlRange` | src/app/api/admin/upload/route.ts:56-65 | every TTL lies between two hours and one year |
| `UploadRoute.ScreenOrder` | src/app/api/admin/upload/route.ts:13-41 | 401 exactly without a session; then "no file"; then "too large" exactly when the size exceeds the limit (a size equal to the limit passes); then "bad type" exactly outside jpeg/png/gif/webp; accepted exactly when all pass |
| `UploadRoute.Accepted` | src/app/api/admin/upload/route.ts:35-36 | `validTypes.includes(file.type)`, the same list as src/components/ImageUploader.tsx:29-30; `ScreenOrder` and `CheckFile` state the type check built on it |
| `UploadRoute.Screen` | src/app/api/admin/upload/route.ts:13-41 | the request checks in order; `ScreenOrder` states each outcome as an if-and-only-if |
| `UploadRoute.Status` | src/app/api/admin/upload/route.ts:14-99 | the HTTP status of each answer; `Post` states 401 exactly without a session, 400 exactly for the other rejections, and 200 exactly on success |
| `UploadRoute.NewRecord` | src/app/api/admin/upload/route.ts:70-80 | the metadata record; `NewRecordFields` states each field |
| `UploadRoute.StoredCustomName` | src/app/api/admin/upload/route.ts:73 | the stored custom name is present exactly when a non-empty name was sent, and is that name |
| `UploadRoute.NewRecordFields` | src/app/api/admin/upload/route.ts:70-80 | display name is the custom name when non-empty and the file name otherwise; the stored type is always `image/webp`; the size is twice the upload's; the record expires `ttl*1000` ms after its upload instant |
| `UploadRoute.ShareUrl` | src/app/api/admin/upload/route.ts:86 | the link is the base URL (the default when `NEXTAUTH_URL` is unset or empty), then `/i/`, then the id |
| `UploadRoute.PairedMetadataImpliesPayload` | src/app/api/admin/upload/route.ts:83-84 | in a paired store (every metadata key has a binary key expiring no earlier), whenever an image's metadata can be read, its payload can be read too |
| `UploadRoute.Committed` | src/app/api/admin/upload/route.ts:83-84 | the store after both SETs, each at its own arrival instant; `CommittedReadBack`, `CommittedKeepsPairing` and `PayloadOutlivesMetadata` state what it reads back |
| `UploadRoute.CommittedReadBack` | src/app/api/admin/upload/route.ts:83-84 | after both writes the metadata key reads back the record up to and including `ttl` seconds after its SET arrived, and the binary key reads back the payload up to and including `ttl` seconds after its own SET arrived; each is gone after that; all other keys read as before; exactly these two keys are added |
| `UploadRoute.PayloadOutlivesMetadata` | src/app/api/admin/upload/route.ts:83-84 | the two keys do not expire together: between the metadata's expiry and the payload's, the payload is still readable and the metadata is not |
| `UploadRoute.CommittedKeepsPairing` | src/app/api/admin/upload/route.ts:83-84 | when the second SET arrives no earlier than the first, a completed upload keeps every metadata key paired with a binary key that expires no earlier |
| `UploadRoute.FailedPayloadWriteBreaksPairing` | src/app/api/admin/upload/route.ts:83-84 | when the binary write fails after the metadata write, nothing is rolled back: the metadata can be read but its payload cannot, and pairing is broken |
| `UploadRoute.Post` | src/app/api/admin/upload/route.ts:10-101 | a rejection answers in the check order, writes nothing and keeps the same client; a transcoding failure gives 500 and writes nothing; a failed first write gives 500 and writes nothing; a failed second write gives 500 and leaves only the metadata key written; success writes exactly both keys with the same TTL, each counted from its own SET's arrival, and returns the id, the share URL and the record's `expiresAt`; the status is 401 exactly without a session, 400 exactly for the other three rejections, and 200 exactly when both writes succeed |
| `ListRoute.Parse` | image-sharing-app/src/app/api/admin/images/route.ts:22 | a stored record's JSON parses back to that record; any other text does not parse |
| `ListRoute.Fetch` | image-sharing-app/src/app/api/admin/images/route.ts:18-24 | the loop fails exactly when some key that is still present holds non-empty text that does not parse; otherwise there are at most as many records as keys, each the parse of a present key's value, and every present key's record is among them; vanished keys and empty strings are skipped |
| `ListRoute.TruthyValue` | image-sharing-app/src/app/api/admin/images/route.ts:21 | `if (data)`: a stored value is used unless it is the empty string; `Fetch` and `EmptyValueSkipped` state that such keys are skipped |
| `ListRoute.EmptyValueSkipped` | image-sharing-app/src/app/api/admin/images/route.ts:20-23 | a key holding the empty string is falsy and skipped: a listing that succeeded still succeeds with such a key added |
| `ListRoute.ScanNeverListsPayloads` | image-sharing-app/src/app/api/admin/images/route.ts:15 | a scan that matches the metadata glob contains no binary key |
| `ListRoute.SwapNeighbours` | image-sharing-app/src/app/api/admin/images/route.ts:27-29 | exchanges two neighbouring cells; nothing else moves, and the contents are the same multiset |
| `ListRoute.InsertNewestFirst` | image-sharing-app/src/app/api/admin/images/route.ts:27-29 | inserts one more cell into the sorted front part, keeping it newest first and the contents the same multiset |
| `ListRoute.SortNewestFirst` | image-sharing-app/src/app/api/admin/images/route.ts:27-29 | the array afterwards is a permutation of the array before, ordered by `uploadedAt` from newest to oldest |
| `ListRoute.ListImages` | image-sharing-app/src/app/api/admin/images/route.ts:6-39 | 401 exactly without a session; otherwise the scanned keys are the live `image:*:data` keys, each once; 500 exactly when some non-empty value that is still present does not parse; otherwise the answer is a newest-first permutation of the records still present when read |
| `ListRoute.TailKeepsOrder` | image-sharing-app/src/app/api/admin/images/route.ts:27-29 | dropping the first record keeps a list newest first with distinct instants |
| `ListRoute.HeadIsNewest` | image-sharing-app/src/app/api/admin/images/route.ts:27-29 | the first record of a newest-first list is at least as new as every record in it |
| `ListRoute.SameTail` | image-sharing-app/src/app/api/admin/images/route.ts:27-29 | two arrangements of the same records that start with the same record have the same remaining records |
| `ListRoute.NewestFirstUnique` | image-sharing-app/src/app/api/admin/images/route.ts:27-29 | when upload instants are distinct, there is only one newest-first arrangement of a set of records |
| `ListRoute.ThreeUploadsListedNewestFirst` | image-sharing-app/src/app/api/admin/images/route.ts:27-29 | three records uploaded at t1 < t2 < t3 are listed as [third, second, first] |
| `ImageUploader.SelectorLabelsHaveTtl` | src/components/ImageUploader.tsx:241-248 | every label the selector offers, including the initial `1d`, has its own entry in the server's TTL table |
| `ImageUploader.CheckFile` | src/components/ImageUploader.tsx:28-39 | rejects a type outside the four image types first; then rejects a file larger than the limit; accepts a file of exactly the limit |
| `ImageUploader.ClientCheckImpliesServerCheck` | src/components/ImageUploader.tsx:29-39 | a file the uploader accepts also passes the server's checks when there is a session |
| `ImageUploader.DefaultLimitBoundary` | src/app/api/admin/upload/route.ts:8 | at the default limit of 10485760 bytes, both the uploader and the route accept an image of exactly that size and both reject one byte more as too large |
| `ImageUploader.LastDot` | src/components/ImageUploader.tsx:44 | the position of the last `.`, or -1; no `.` follows it |
| `ImageUploader.StripExtension` | src/components/ImageUploader.tsx:44 | the name without its extension; `StripExtensionIsRegexReplace` states it equals the regex replacement |
| `ImageUploader.ExtensionAt` | src/components/ImageUploader.tsx:44 | where `/\.[^/.]+$/` matches: a `.` followed by a non-empty run without `/` or `.` up to the end; `StripExtensionIsRegexReplace` states the replacement built on it |
| `ImageUploader.MatchIsAtLastDot` | src/components/ImageUploader.tsx:44 | where `/\.[^/.]+$/` matches, it matches at the last dot |
| `ImageUploader.StripAtMatch` | src/components/ImageUploader.tsx:44 | where the pattern matches, the name is cut at the match |
| `ImageUploader.CutIsMatch` | src/components/ImageUploader.tsx:44 | wherever the name is cut, the pattern matches at the cut |
| `ImageUploader.StripExtensionIsRegexReplace` | src/components/ImageUploader.tsx:44 | the default name removes exactly the pattern's match (at most one) and leaves the name alone when there is none; the result is always a prefix |
| `ImageUploader.StripExtensionRoundTrip` | src/components/ImageUploader.tsx:44 | `base.ext` becomes `base` when `ext` is non-empty and holds no `/` or `.` |
| `ImageUploader.StripExtensionNoDot` | src/components/ImageUploader.tsx:44 | a name without a dot is unchanged |
| `ImageUploader.IsImageItem` | src/components/ImageUploader.tsx:78 | `items[i].type.indexOf('image') !== -1`; `IndexOfFound` states it holds whenever `image` occurs in the type |
| `ImageUploader.Usable` | src/components/ImageUploader.tsx:78-80 | a paste entry is used when its type contains `image` and `getAsFile()` yields a file; `FirstPastedImageIsFirst` states that the paste picks the earliest such entry |
| `ImageUploader.FirstPastedImage` | src/components/ImageUploader.tsx:75-86 | the file the paste picks; `FirstPastedImageIsFirst` states it is the earliest usable entry's |
| `ImageUploader.FirstPastedImageIsFirst` | src/components/ImageUploader.tsx:75-86 | the paste picks the file of the earliest entry whose type contains `image` and that yields a file, and picks nothing exactly when there is no such entry |
| `ImageUploader.NameField` | src/components/ImageUploader.tsx:102-104 | the `name` field is sent exactly when the custom name is not blank, and then it is the trimmed name, which is non-empty |
| `ImageUploader.UploaderState.constructor` | src/components/ImageUploader.tsx:22-25 | the form starts with no file, no preview, the label `1d` and an empty name |
| `ImageUploader.UploaderState.HandleFile` | src/components/ImageUploader.tsx:28-53 | a refused file leaves the whole state unchanged; an accepted one becomes the selection, and its name without extension becomes the name field |
| `ImageUploader.UploaderState.HandlePaste` | src/components/ImageUploader.tsx:75-86 | passes the first usable entry, and no later one, to the file handler; with no usable entry nothing changes |
| `ImageUploader.UploaderState.SelectExpiration` | src/components/ImageUploader.tsx:236-249 | the selector sets the label to one it offers and changes nothing else |
| `ImageUploader.UploaderState.EditName` | src/components/ImageUploader.tsx:226-233 | typing sets the name field and changes nothing else |
| `ImageUploader.UploaderState.HandleUpload` | src/components/ImageUploader.tsx:95-137 | with no file nothing is sent; otherwise the form carries the file, the label and the name field; after a success the form resets to no file, no preview, `1d` and an empty name, and otherwise it stays as it was |
| `ImageUploader.UploaderState.ClearSelection` | src/components/ImageUploader.tsx:139-146 | drops the file, the preview and the name, and keeps the label |
| `ImageUploader.SentFormOnServer` | src/components/ImageUploader.tsx:101-104 | for a form the uploader sends, the server uses the label's own TTL, and the display name is the trimmed custom name when it is not blank and the file name otherwise |
| `JsStrings.IsWhitespace` | src/components/ImageUploader.tsx:102-103 | the WhiteSpace and LineTerminator characters of ECMAScript that `trim` removes; `TrimStart` and `TrimEnd` state that exactly these are cut off |
| `JsStrings.Truthy` | src/lib/auth.ts:27-34 | JavaScript truthiness of a nullable string: present and non-empty. The same test is at src/components/ImageList.tsx:78 and :99. `AuthorizeSucceedsIff`, `AuthorizeRejects`, `DeleteRequestFor` and `RenameRequestFor` state the guards built on it |
| `JsStrings.TrimStart` | src/components/ImageUploader.tsx:102-103 | removes exactly the leading white space: the result is a suffix that does not start with white space, and everything cut off is white space |
| `JsStrings.TrimEnd` | src/components/ImageUploader.tsx:102-103 | removes exactly the trailing white space: the result is a prefix that does not end with white space, and everything cut off is white space |
| `JsStrings.Trim` | src/components/ImageUploader.tsx:102-103 | the trimmed string is the contiguous piece of the input that is left once the leading and trailing white space is cut off, and it neither starts nor ends with white space |
| `JsStrings.TrimEmptyIffBlank` | src/components/ImageList.tsx:99 | `s.trim()` is empty exactly when `s` is all white space |
| `JsStrings.TrimIdempotent` | src/components/ImageUploader.tsx:103 | trimming an already trimmed string changes nothing |
| `JsStrings.IndexOfFrom` | src/components/ImageUploader.tsx:78 | for a start inside the string, returns the first position at or after the start where the substring occurs, or -1 when there is none |
| `JsStrings.IndexOf` | src/components/ImageUploader.tsx:78 | `indexOf` from the start; `IndexOfFrom` and `IndexOfFound` state its result |
| `JsStrings.IndexOfFound` | src/components/ImageUploader.tsx:78 | whenever the substring occurs, `indexOf` is not -1 and is at most that position |
| `JsStrings.Decimal` | src/components/ImageList.tsx:144-147 | a non-empty string of decimal digits, with a leading zero only for 0 |
| `JsStrings.DecimalRoundTrip` | src/components/ImageList.tsx:144-147 | reading the rendered digits back gives the number |
| `JsStrings.DecimalInjective` | image-sharing-app/src/components/ImageList.tsx:103-106 | different numbers render to different text |
| `ImageList.GetTimeRemaining` | src/components/ImageList.tsx:134-148 | the remaining-time text; `ExpiredIff`, `TimeRemainingShape`, `UnderAnHour` and `DaysHoursBracketSpan` state its cases |
| `ImageList.SizeUnitOf` | src/components/ImageList.tsx:124-128 | the unit `formatFileSize` picks; `SizeUnitThresholds` states its thresholds |
| `ImageList.Days` | src/components/ImageList.tsx:141 | `Math.floor(diff / 86400000)`; `DaysHoursBracketSpan` states the bracket it gives |
| `ImageList.Hours` | src/components/ImageList.tsx:142 | `Math.floor((diff % 86400000) / 3600000)`; `DaysHoursBracketSpan` states it lies in 0..23 and brackets the rest |
| `ImageList.DaysHoursBracketSpan` | src/components/ImageList.tsx:141-142 | hours lie in 0..23, and `days*86400000 + hours*3600000 <= diff < days*86400000 + (hours+1)*3600000` |
| `ImageList.ExpiredIff` | src/components/ImageList.tsx:137-139 | the text is `Expired` exactly when the expiry instant minus now is at most 0 ms |
| `ImageList.TimeRemainingShape` | image-sharing-app/src/components/ImageList.tsx:96-106 | with at least a whole day left the text is `<d>d <h>h remaining`, otherwise `<h>h remaining` |
| `ImageList.UnderAnHour` | src/components/ImageList.tsx:144-147 | a positive span under one hour reads `0h remaining` |
| `ImageList.SizeUnitThresholds` | image-sharing-app/src/components/ImageList.tsx:83-87 | the unit is B below 1024 bytes, KB below 1048576 bytes and MB from there on; a larger size never gets a smaller unit |
| `ImageList.DeleteRequestFor` | image-sharing-app/src/components/ImageList.tsx:63-66 | a delete request is sent exactly when the dialog's id is present and non-empty, and it names that id |
| `ImageList.RenameRequestFor` | src/components/ImageList.tsx:98-108 | a rename request is sent exactly when the id is present and the new name is not blank; it carries the id and the trimmed, non-empty name |
| `ImageList.ImageListState.constructor` | src/components/ImageList.tsx:34-44 | both dialogs start closed and empty |
| `ImageList.ImageListState.OpenDeleteDialog` | src/components/ImageList.tsx:230-236 | the delete dialog opens on the image's id and display name; the rename dialog is untouched |
| `ImageList.ImageListState.OpenEditDialog` | src/components/ImageList.tsx:216-223 | the rename dialog opens on the image with its display name as the new name; the delete dialog is untouched |
| `ImageList.ImageListState.EditNewName` | src/components/ImageList.tsx:296-298 | typing changes only the rename dialog's new name |
| `ImageList.ImageListState.DeleteImage` | src/components/ImageList.tsx:77-96 | without an id nothing is sent and nothing changes; otherwise the request goes out, the list refreshes only on an OK answer, and the dialog is closed and cleared whatever the outcome |
| `ImageList.ImageListState.UpdateImageName` | src/components/ImageList.tsx:98-122 | with no id or a blank new name nothing is sent and nothing changes; otherwise the trimmed name goes out, the list refreshes only on an OK answer, and the dialog is closed and cleared whatever the outcome |
| `ImageList.RenameFromOpenedDialog` | src/components/ImageList.tsx:216-223 | confirming a freshly opened rename dialog sends the record's trimmed display name, or nothing when that name is blank |
| `Auth.Authorize` | src/lib/auth.ts:26-57 | the credentials check; `AuthorizeSucceedsIff` and `AuthorizeRejects` state when it succeeds |
| `Auth.AuthorizeSucceedsIff` | src/lib/auth.ts:26-57 | sign-in succeeds exactly when both fields are filled in, the admin account is configured, and the name and the password both equal the configured ones; the user is then `{id: "1", name: admin, email: admin@imageshare.local}` |
| `Auth.AuthorizeRejects` | src/lib/auth.ts:27-50 | a missing field, an unconfigured account, a different username or a different password each give null |
| `Auth.Jwt` | src/lib/auth.ts:67-72 | with a user the token's id becomes the user's id; without one the token is returned unchanged |
| `Auth.SessionCallback` | src/lib/auth.ts:73-78 | when the session has a user, that user's id becomes the token's id and nothing else changes |
| `Auth.SignInThenSession` | src/lib/auth.ts:66-78 | after a successful sign-in the session's user id is `"1"`; otherwise it is whatever id the token already had |

## Left out

- Network I/O, connection events, console logging, and the exit when
  `REDIS_PASSWORD` is unset (src/lib/redis.ts:3-9, 33) are not modelled. A
  failed SET is modelled as a flag for whether the backend acknowledges the
  write. `connect` always succeeds in the model. The reconnect strategy is
  modelled as a function, but the library loop that calls it is not.
- The module-level client of `image-sharing-app/src/lib/redis.ts` is not
  modelled. It connects when the module loads, and its `setWithExpiry` is the
  same as `src/lib/redis.ts:48-51`. The list route reads the one modelled store.
- Image transcoding (`sharp`) is an opaque function parameter. It returns
  nothing when `sharp` throws. Base64 encoding (`Buffer.toString('base64')`,
  section 4 of RFC 4648) is also an opaque function parameter. The id from
  `nanoid(10)` is a parameter.
- JSON text, ISO-8601 dates, `Date.now()`, `toLocaleString` and `toFixed(1)`
  are not modelled. Records are datatypes, and instants are integer
  milliseconds. The record's `uploadedAt` and `expiresAt` use one route instant,
  where the code reads the clock twice.
  An invalid date (NaN) is not modelled.
- `ListRoute.Parse`: stored values are either a record's JSON or other text.
  Other text that happens to be valid JSON would be pushed by `JSON.parse`
  without an error. The model treats it as not parsing.
- The race between `KEYS` and `GET` is modelled only through time. The reads
  happen at an instant given as a parameter, so a key can expire after the
  scan. Concurrent deletes by other requests are not modelled.
- A request body that is not form data (when `request.formData()` throws) is
  not modelled. The size limit is a parameter, with default
  `UploadRoute.DefaultMaxFileSize`. Reading it from the environment with
  `parseInt` (including NaN) is not modelled.
- Looking up a label such as `toString` in the TTL table (JS prototype
  properties) is not modelled. Every label outside the eight keys falls back
  to `1d`. An absent `expiration` field is looked up as the string `"null"`
  and falls back the same way.
- `ImageList.SizeUnitThresholds` covers only the choice of unit. The
  one-decimal floating-point figure is not modelled.
- React rendering, toasts, dialogs' open/cancel handlers, the clipboard, the
  `FileReader` preview, `window.open`, router navigation, QR pages, and
  `handleDrop`/`handleFileSelect` are not modelled. The last two only pass the
  first file to `handleFile`. The preview is only ever cleared in the model.
  The "paste from clipboard" button's own loop (src/components/ImageUploader.tsx:174-188)
  is not modelled.
- The older list component opens its delete dialog with the original file
  name instead of the display name
  (image-sharing-app/src/components/ImageList.tsx:169-173). The name is only
  displayed. The model's `OpenDeleteDialog` follows the newer component.
- NextAuth session retrieval and the JWT signing are not modelled. A route
  receives the session as an optional user. `getServerSession` itself is not
  part of this model.
- The image read, delete and rename server routes, and the pages, are not
  part of this model.

=== FILE: auth.dfy ===
/**
 * The credentials provider and the two callbacks of the authentication
 * options: a single configured admin account, and the user id carried from
 * the sign-in into the token and from the token into the session.
 */
module Auth {
  import opened Wrappers
  import opened JsStrings

  /** What the sign-in form submits; either field may be missing. */
  datatype Credentials = Credentials(username: Option<string>, password: Option<string>)

  /** `ADMIN_USERNAME` and `ADMIN_PASSWORD`; either may be unset. */
  datatype AdminConfig = AdminConfig(username: Option<string>, password: Option<string>)

  datatype User = User(id: string, name: string, email: string)

  const AdminId: string := "1"
  const EmailDomain: string := "@imageshare.local"

  /** `authorize(credentials)`: the early returns in order, then the admin user. */
  function Authorize(credentials: Option<Credentials>, config: AdminConfig): Option<User> {
    if credentials.None? || !Truthy(credentials.value.username) || !Truthy(credentials.value.password) then None
    else if !Truthy(config.username) || !Truthy(config.password) then None
    else if credentials.value.username.value != config.username.value then None
    else if credentials.value.password.value != config.password.value then None
    else Some(User(AdminId, config.username.value, config.username.value + EmailDomain))
  }

  /**
   * Sign-in succeeds exactly when both fields are filled in, the admin
   * account is configured, and both fields equal the configured ones; the
   * user is then always the same admin record.
   */
  lemma AuthorizeSucceedsIff(credentials: Option<Credentials>, config: AdminConfig)
    ensures Authorize(credentials, config).Some? <==>
      && credentials.Some? && Truthy(credentials.value.username) && Truthy(credentials.value.password)
      && Truthy(config.username) && Truthy(config.password)
      && credentials.value.username == config.username
      && credentials.value.password == config.password
    ensures Authorize(credentials, config).Some? ==>
      Authorize(credentials, config).value == User("1", config.username.value, config.username.value + "@imageshare.local")
  {
  }

  /** Each rejection on its own: missing field, unconfigured account, wrong name, wrong password. */
  lemma AuthorizeRejects(credentials: Option<Credentials>, config: AdminConfig)
    ensures credentials.None? ==> Authorize(credentials, config).None?
    ensures credentials.Some? && (!Truthy(credentials.value.username) || !Truthy(credentials.value.password)) ==>
      Authorize(credentials, config).None?
    ensures !Truthy(config.username) || !Truthy(config.password) ==> Authorize(credentials, config).None?
    ensures credentials.Some? && credentials.value.username != config.username ==> Authorize(credentials, config).None?
    ensures credentials.Some? && credentials.value.password != config.password ==> Authorize(credentials, config).None?
  {
  }

  /** The signed JWT's claims; only `id` is touched by the callbacks. */
  class Token {
    var id: Option<string>
    var name: Option<string>
    var email: Option<string>

    constructor (name: Option<string>, email: Option<string>)
      ensures id == None && this.name == name && this.email == email
    {
      id := None;
      this.name := name;
      this.email := email;
    }
  }

  class SessionUser {
    var id: Option<string>
    var name: Option<string>
    var email: Option<string>

    constructor (name: Option<string>, email: Option<string>)
      ensures id == None && this.name == name && this.email == email
    {
      id := None;
      this.name := name;
      this.email := email;
    }
  }

  /** The session object handed to the client; `user` may be absent. */
  class Session {
    var user: SessionUser?

    constructor (user: SessionUser?)
      ensures this.user == user
    {
      this.user := user;
    }
  }

  /** The `jwt` callback: with a user (at sign-in) the token takes its id; otherwise the token is returned as it was. */
  method Jwt(token: Token, user: Option<User>) returns (result: Token)
    modifies token
    ensures result == token
    ensures user.Some? ==> token.id == Some(user.value.id)
    ensures user.None? ==> token.id == old(token.id)
    ensures token.name == old(token.name) && token.email == old(token.email)
  {
    if user.Some? {
      token.id := Some(user.value.id);
    }
    result := token;
  }

  /** The `session` callback: when the session has a user, its id becomes the token's id; nothing else changes. */
  method SessionCallback(session: Session, token: Token) returns (result: Session)
    modifies session.user
    ensures result == session && session.user == old(session.user)
    ensures session.user != null ==> session.user.id == token.id
    ensures session.user != null ==> session.user.name == old(session.user.name) && session.user.email == old(session.user.email)
  {
    if session.user != null {
      session.user.id := token.id;
    }
    result := session;
  }

  /** Signing in and then building the session carries the admin id, "1", all the way into the session. */
  method SignInThenSession(credentials: Option<Credentials>, config: AdminConfig, token: Token, session: Session)
    returns (result: Session)
    requires session.user != null
    modifies token, session.user
    ensures Authorize(credentials, config).Some? ==> session.user.id == Some("1")
    ensures Authorize(credentials, config).None? ==> session.user.id == old(token.id)
  {
    var user := Authorize(credentials, config);
    var t := Jwt(token, user);
    result := SessionCallback(session, t);
  }
}

=== FILE: image_list.dfy ===
/**
 * The admin image list: the remaining-time text, the size unit, and the
 * delete and rename dialogs with the guards that decide whether a request is
 * sent at all. The two copies of the list component share these helpers
 * verbatim; the older copy has only the delete dialog.
 */
module ImageList {
  import opened Wrappers
  import opened JsStrings
  import opened Records

  const MsPerHour: nat := 1000 * 60 * 60
  const MsPerDay: nat := 1000 * 60 * 60 * 24

  /** `Math.floor(diff / 86400000)`, for the positive spans where it is used. */
  function Days(diff: int): nat
    requires diff > 0
  {
    diff / MsPerDay
  }

  /** `Math.floor((diff % 86400000) / 3600000)`, for the positive spans where it is used. */
  function Hours(diff: int): nat
    requires diff > 0
  {
    (diff % MsPerDay) / MsPerHour
  }

  /** `getTimeRemaining(expiresAt)` read at instant `now` (both in milliseconds). */
  function GetTimeRemaining(expiresAt: int, now: int): string {
    var diff := expiresAt - now;
    if diff <= 0 then "Expired"
    else if Days(diff) > 0 then Decimal(Days(diff)) + "d " + Decimal(Hours(diff)) + "h remaining"
    else Decimal(Hours(diff)) + "h remaining"
  }

  /**
   * Days and hours are whole units that fit inside the span, and one more
   * hour would overshoot it; the hour count is between 0 and 23.
   */
  lemma {:induction false} DaysHoursBracketSpan(diff: int)
    requires diff > 0
    ensures 0 <= Hours(diff) <= 23
    ensures Days(diff) * MsPerDay + Hours(diff) * MsPerHour <= diff
    ensures diff < Days(diff) * MsPerDay + (Hours(diff) + 1) * MsPerHour
  {
    var d, r := diff / MsPerDay, diff % MsPerDay;
    assert diff == d * MsPerDay + r && 0 <= r < MsPerDay;
    var h, m := r / MsPerHour, r % MsPerHour;
    assert r == h * MsPerHour + m && 0 <= m < MsPerHour;
    assert MsPerDay == 24 * MsPerHour;
    assert h < 24;
  }

  /** The text is `Expired` exactly when the expiry instant is not after `now`. */
  lemma ExpiredIff(expiresAt: int, now: int)
    ensures GetTimeRemaining(expiresAt, now) == "Expired" <==> expiresAt - now <= 0
  {
    var diff := expiresAt - now;
    if diff > 0 {
      var t := GetTimeRemaining(expiresAt, now);
      var lead := if Days(diff) > 0 then Decimal(Days(diff)) else Decimal(Hours(diff));
      assert t[0] == lead[0];
      assert '0' <= t[0] <= '9';
      assert "Expired"[0] == 'E';
    }
  }

  /** The two shapes of the text: with a day count only when at least one whole day remains. */
  lemma TimeRemainingShape(expiresAt: int, now: int)
    requires expiresAt - now > 0
    ensures var diff := expiresAt - now;
      && (diff >= MsPerDay ==> GetTimeRemaining(expiresAt, now) == Decimal(diff / MsPerDay) + "d " + Decimal(Hours(diff)) + "h remaining")
      && (diff < MsPerDay ==> GetTimeRemaining(expiresAt, now) == Decimal(Hours(diff)) + "h remaining")
  {
  }

  /** Less than an hour left, but not expired, reads `0h remaining`. */
  lemma UnderAnHour(expiresAt: int, now: int)
    requires 0 < expiresAt - now < MsPerHour
    ensures GetTimeRemaining(expiresAt, now) == "0h remaining"
  {
    var diff := expiresAt - now;
    assert Days(diff) == 0 && Hours(diff) == 0;
  }

  // ---------------------------------------------------------------------
  // File size unit
  // ---------------------------------------------------------------------

  datatype SizeUnit = Bytes | Kilobytes | Megabytes

  /** The unit `formatFileSize` picks. */
  function SizeUnitOf(bytes: int): SizeUnit {
    if bytes < 1024 then Bytes
    else if bytes < 1024 * 1024 then Kilobytes
    else Megabytes
  }

  function Rank(u: SizeUnit): nat {
    match u
    case Bytes => 0
    case Kilobytes => 1
    case Megabytes => 2
  }

  /** B below 1024 bytes, KB below 1048576 bytes, MB from there on; a larger size never gets a smaller unit. */
  lemma SizeUnitThresholds(bytes: int, larger: int)
    ensures SizeUnitOf(bytes) == Bytes <==> bytes < 1024
    ensures SizeUnitOf(bytes) == Kilobytes <==> 1024 <= bytes < 1048576
    ensures SizeUnitOf(bytes) == Megabytes <==> bytes >= 1048576
    ensures bytes <= larger ==> Rank(SizeUnitOf(bytes)) <= Rank(SizeUnitOf(larger))
  {
  }

  // ---------------------------------------------------------------------
  // Dialogs and requests
  // ---------------------------------------------------------------------

  datatype DeleteDialog = DeleteDialog(open: bool, imageId: Option<string>, imageName: Option<string>)
  datatype EditDialog = EditDialog(open: bool, imageId: Option<string>, imageName: Option<string>, newName: string)

  const ClosedDeleteDialog: DeleteDialog := DeleteDialog(false, None, None)
  const ClosedEditDialog: EditDialog := EditDialog(false, None, None, "")

  /** The requests the list sends: `DELETE` and `PATCH /api/admin/images/<id>`. */
  datatype Request = DeleteRequest(imageId: string) | RenameRequest(imageId: string, name: string)

  /** `if (!deleteDialog.imageId) return;` and the request otherwise. */
  function DeleteRequestFor(d: DeleteDialog): (r: Option<Request>)
    ensures r.Some? <==> Truthy(d.imageId)
    ensures r.Some? ==> r.value.DeleteRequest? && r.value.imageId == d.imageId.value
  {
    if Truthy(d.imageId) then Some(DeleteRequest(d.imageId.value)) else None
  }

  /** `if (!editDialog.imageId || !editDialog.newName.trim()) return;` and the request, with the trimmed name, otherwise. */
  function RenameRequestFor(d: EditDialog): (r: Option<Request>)
    ensures r.Some? <==> Truthy(d.imageId) && !Blank(d.newName)
    ensures r.Some? ==> r.value.RenameRequest? && r.value.imageId == d.imageId.value
    ensures r.Some? ==> r.value.name == Trim(d.newName) && r.value.name != [] && !IsWhitespace(r.value.name[0])
  {
    TrimEmptyIffBlank(d.newName);
    if Truthy(d.imageId) && Trim(d.newName) != "" then Some(RenameRequest(d.imageId.value, Trim(d.newName))) else None
  }

  /** The list component's dialog state. */
  class ImageListState {
    var deleteDialog: DeleteDialog
    var editDialog: EditDialog

    constructor ()
      ensures deleteDialog == ClosedDeleteDialog && editDialog == ClosedEditDialog
    {
      deleteDialog := ClosedDeleteDialog;
      editDialog := ClosedEditDialog;
    }

    /** The delete button of an image: the dialog opens on that image. */
    method OpenDeleteDialog(image: ImageRecord)
      modifies this
      ensures deleteDialog == DeleteDialog(true, Some(image.id), Some(image.displayName))
      ensures editDialog == old(editDialog)
    {
      deleteDialog := DeleteDialog(true, Some(image.id), Some(image.displayName));
    }

    /** The rename button of an image: the dialog opens with the current display name as the new name. */
    method OpenEditDialog(image: ImageRecord)
      modifies this
      ensures editDialog == EditDialog(true, Some(image.id), Some(image.displayName), image.displayName)
      ensures deleteDialog == old(deleteDialog)
    {
      editDialog := EditDialog(true, Some(image.id), Some(image.displayName), image.displayName);
    }

    /** Typing into the rename dialog's field. */
    method EditNewName(text: string)
      modifies this
      ensures editDialog == old(editDialog).(newName := text)
      ensures deleteDialog == old(deleteDialog)
    {
      editDialog := editDialog.(newName := text);
    }

    /**
     * `deleteImage`: without an id nothing is sent and nothing changes;
     * otherwise the request goes out, the list is refreshed when the answer
     * is OK, and the dialog is closed and cleared whatever the outcome.
     */
    method DeleteImage(responseOk: bool) returns (sent: Option<Request>, refreshed: bool)
      modifies this
      ensures sent == DeleteRequestFor(old(deleteDialog))
      ensures sent.None? ==> deleteDialog == old(deleteDialog) && !refreshed
      ensures sent.Some? ==> deleteDialog == ClosedDeleteDialog && refreshed == responseOk
      ensures editDialog == old(editDialog)
    {
      sent := DeleteRequestFor(deleteDialog);
      refreshed := false;
      if sent.None? {
        return;
      }
      refreshed := responseOk;
      deleteDialog := ClosedDeleteDialog;
    }

    /**
     * `updateImageName`: without an id or with a blank new name nothing is
     * sent and nothing changes; otherwise the trimmed name goes out, the list
     * is refreshed when the answer is OK, and the dialog is closed and
     * cleared whatever the outcome.
     */
    method UpdateImageName(responseOk: bool) returns (sent: Option<Request>, refreshed: bool)
      modifies this
      ensures sent == RenameRequestFor(old(editDialog))
      ensures sent.None? ==> editDialog == old(editDialog) && !refreshed
      ensures sent.Some? ==> editDialog == ClosedEditDialog && refreshed == responseOk
      ensures deleteDialog == old(deleteDialog)
    {
      sent := RenameRequestFor(editDialog);
      refreshed := false;
      if sent.None? {
        return;
      }
      refreshed := responseOk;
      editDialog := ClosedEditDialog;
    }
  }

  /** Opening the rename dialog on a listed record and confirming unchanged sends that record's trimmed display name, unless it is blank. */
  lemma RenameFromOpenedDialog(image: ImageRecord)
    requires image.id != ""
    ensures var r := RenameRequestFor(EditDialog(true, Some(image.id), Some(image.displayName), image.displayName));
      && (Blank(image.displayName) ==> r.None?)
      && (!Blank(image.displayName) ==> r == Some(RenameRequest(image.id, Trim(image.displayName))))
  {
  }
}

=== FILE: image_uploader.dfy ===
/**
 * The upload form of the admin page: file validation, the default name taken
 * from the file name, picking an image out of a paste, and the form fields
 * sent to the upload route.
 */
module ImageUploader {
  import opened Wrappers
  import opened JsStrings
  import opened Records
  import opened UploadRoute

  /** The retention labels the expiration selector offers, in the order shown. */
  const SelectorLabels: seq<string> := ["2h", "1d", "3d", "7d", "1m", "3m", "6m", "1y"]

  /** The selector's value when the form is fresh or reset. */
  const InitialExpiration: string := "1d"

  /** Every choice the selector offers has its own entry in the server's TTL table, so none of them falls back. */
  lemma SelectorLabelsHaveTtl()
    ensures forall l :: l in SelectorLabels ==> l in TtlTable
    ensures InitialExpiration in SelectorLabels
  {
  }

  /** Why the uploader refuses a file. */
  datatype FileRejection = WrongType | OverLimit

  /** The uploader's checks: the type first, then the size; a file of exactly the limit is accepted. */
  function CheckFile(file: UploadedFile, maxSize: int): (r: Option<FileRejection>)
    ensures r == Some(WrongType) <==> !Accepted(file.mimeType)
    ensures r == Some(OverLimit) <==> Accepted(file.mimeType) && file.Size() > maxSize
    ensures r == None <==> Accepted(file.mimeType) && file.Size() <= maxSize
  {
    if !Accepted(file.mimeType) then Some(WrongType)
    else if file.Size() > maxSize then Some(OverLimit)
    else None
  }

  /** A file the uploader lets through is one the server's own checks also let through. */
  lemma ClientCheckImpliesServerCheck(file: UploadedFile, maxSize: int, user: RouteSession)
    requires CheckFile(file, maxSize).None?
    ensures Screen(Some(user), Some(file), maxSize).None?
  {
  }

  /**
   * At the default limit, when `NEXT_PUBLIC_MAX_FILE_SIZE` is unset, both
   * sides accept a 10 MiB image and both turn away one byte more as too large.
   */
  lemma DefaultLimitBoundary(file: UploadedFile, user: RouteSession)
    requires Accepted(file.mimeType)
    ensures file.Size() == DefaultMaxFileSize ==>
      CheckFile(file, DefaultMaxFileSize).None? && Screen(Some(user), Some(file), DefaultMaxFileSize).None?
    ensures file.Size() == DefaultMaxFileSize + 1 ==>
      CheckFile(file, DefaultMaxFileSize) == Some(OverLimit) && Screen(Some(user), Some(file), DefaultMaxFileSize) == Some(TooLarge)
  {
  }

  // ---------------------------------------------------------------------
  // Default name: `file.name.replace(/\.[^/.]+$/, '')`
  // ---------------------------------------------------------------------

  /** The regular expression `\.[^/.]+$` matches `name` at position `i`: a dot followed by at least one character, none of them `/` or `.`, up to the end. */
  predicate ExtensionAt(name: string, i: int) {
    0 <= i < |name| - 1 && name[i] == '.' && forall j :: i < j < |name| ==> name[j] != '.' && name[j] != '/'
  }

  /** The position of the last `.`, or -1. */
  function LastDot(s: string): (i: int)
    ensures -1 <= i < |s|
    ensures i >= 0 ==> s[i] == '.'
    ensures forall j :: i < j < |s| ==> s[j] != '.'
    decreases |s|
  {
    if s == [] then -1
    else if s[|s| - 1] == '.' then |s| - 1
    else LastDot(s[..|s| - 1])
  }

  function NoSlash(s: string): bool {
    forall j :: 0 <= j < |s| ==> s[j] != '/'
  }

  /** The name with one trailing extension removed. */
  function StripExtension(name: string): string {
    var i := LastDot(name);
    if i >= 0 && i + 1 < |name| && NoSlash(name[i + 1..]) then name[..i] else name
  }

  /** Where the regular expression matches, it matches at the last dot. */
  lemma MatchIsAtLastDot(name: string, i: int)
    requires ExtensionAt(name, i)
    ensures LastDot(name) == i
  {
  }

  /** Where the regular expression matches, the name is cut at the match. */
  lemma StripAtMatch(name: string, i: int)
    requires ExtensionAt(name, i)
    ensures StripExtension(name) == name[..i]
  {
    MatchIsAtLastDot(name, i);
    var tail := name[i + 1..];
    forall j | 0 <= j < |tail| ensures tail[j] != '/' {
      assert tail[j] == name[i + 1 + j];
    }
    assert NoSlash(tail);
  }

  /** Where the name is cut, the regular expression matches at the cut. */
  lemma CutIsMatch(name: string)
    requires StripExtension(name) != name
    ensures ExtensionAt(name, |StripExtension(name)|)
  {
    var d := LastDot(name);
    var tail := name[d + 1..];
    forall j | d < j < |name| ensures name[j] != '/' {
      assert name[j] == tail[j - d - 1];
    }
  }

  /**
   * The replacement removes the regular expression's match and nothing else:
   * where it matches (at most one place), the name is cut there; where it
   * does not, the name is left alone. Either way the result is a prefix.
   */
  lemma StripExtensionIsRegexReplace(name: string)
    ensures forall i :: ExtensionAt(name, i) ==> StripExtension(name) == name[..i]
    ensures (forall i :: !ExtensionAt(name, i)) ==> StripExtension(name) == name
    ensures |StripExtension(name)| <= |name| && StripExtension(name) == name[..|StripExtension(name)|]
  {
    forall i | ExtensionAt(name, i) ensures StripExtension(name) == name[..i] {
      StripAtMatch(name, i);
    }
    if StripExtension(name) != name {
      CutIsMatch(name);
    }
  }

  /** `base.ext` loses exactly `.ext` when `ext` is non-empty and holds no `/` or `.`. */
  lemma StripExtensionRoundTrip(base: string, ext: string)
    requires ext != [] && forall j :: 0 <= j < |ext| ==> ext[j] != '.' && ext[j] != '/'
    ensures StripExtension(base + "." + ext) == base
  {
    var name := base + "." + ext;
    assert ExtensionAt(name, |base|) by {
      forall j | |base| < j < |name| ensures name[j] != '.' && name[j] != '/' {
        assert name[j] == ext[j - |base| - 1];
      }
    }
    StripExtensionIsRegexReplace(name);
    assert name[..|base|] == base;
  }

  /** A name without a dot is kept as it is. */
  lemma StripExtensionNoDot(name: string)
    requires forall j :: 0 <= j < |name| ==> name[j] != '.'
    ensures StripExtension(name) == name
  {
  }

  // ---------------------------------------------------------------------
  // Paste
  // ---------------------------------------------------------------------

  /** A clipboard entry: its MIME type and what `getAsFile()` gives. */
  datatype ClipboardItem = ClipboardItem(kind: string, file: Option<UploadedFile>)

  /** `item.type.indexOf('image') !== -1` */
  predicate IsImageItem(item: ClipboardItem) {
    IndexOf(item.kind, "image") != -1
  }

  /** A usable paste entry: an image type that yields a file. */
  predicate Usable(item: ClipboardItem) {
    IsImageItem(item) && item.file.Some?
  }

  /** The file of the first usable entry. */
  function FirstPastedImage(items: seq<ClipboardItem>): Option<UploadedFile> {
    if items == [] then None
    else if Usable(items[0]) then items[0].file
    else FirstPastedImage(items[1..])
  }

  /** The paste picks the file of the earliest usable entry, and nothing when no entry is usable. */
  lemma {:induction false} FirstPastedImageIsFirst(items: seq<ClipboardItem>)
    ensures FirstPastedImage(items).None? <==> forall i :: 0 <= i < |items| ==> !Usable(items[i])
    ensures FirstPastedImage(items).Some? ==>
      exists i :: 0 <= i < |items| && Usable(items[i]) && items[i].file == FirstPastedImage(items)
        && forall j :: 0 <= j < i ==> !Usable(items[j])
  {
    if items != [] && !Usable(items[0]) {
      var rest := items[1..];
      FirstPastedImageIsFirst(rest);
      assert forall i :: 0 < i < |items| ==> items[i] == rest[i - 1];
      if FirstPastedImage(items).Some? {
        var i :| 0 <= i < |rest| && Usable(rest[i]) && rest[i].file == FirstPastedImage(rest)
          && forall j :: 0 <= j < i ==> !Usable(rest[j]);
        assert Usable(items[i + 1]) && forall j :: 0 <= j < i + 1 ==> !Usable(items[j]);
      }
    } else if items != [] {
      assert Usable(items[0]) && items[0].file == FirstPastedImage(items);
    }
  }

  // ---------------------------------------------------------------------
  // Form state
  // ---------------------------------------------------------------------

  /** `if (customName.trim()) formData.append('name', customName.trim())` */
  function NameField(customName: string): (r: Option<string>)
    ensures r.None? <==> Blank(customName)
    ensures r.Some? ==> r.value == Trim(customName) && r.value != []
  {
    TrimEmptyIffBlank(customName);
    if Trim(customName) != "" then Some(Trim(customName)) else None
  }

  /** The component's state: the chosen file, the retention choice, the preview and the name field. */
  class UploaderState {
    var selectedFile: Option<UploadedFile>
    var expiration: string
    var preview: Option<string>
    var customName: string

    /** The selector only ever holds a choice it offers. */
    ghost predicate Valid()
      reads this
    {
      expiration in SelectorLabels
    }

    constructor ()
      ensures Valid()
      ensures selectedFile == None && expiration == InitialExpiration && preview == None && customName == ""
    {
      selectedFile := None;
      expiration := InitialExpiration;
      preview := None;
      customName := "";
    }

    /**
     * `handleFile`: a refused file changes nothing; an accepted one becomes
     * the selection and its name without extension becomes the name field.
     */
    method HandleFile(file: UploadedFile, maxSize: int) returns (rejection: Option<FileRejection>)
      requires Valid()
      modifies this
      ensures Valid()
      ensures rejection == CheckFile(file, maxSize)
      ensures rejection.Some? ==>
        selectedFile == old(selectedFile) && customName == old(customName)
        && expiration == old(expiration) && preview == old(preview)
      ensures rejection.None? ==>
        selectedFile == Some(file) && customName == StripExtension(file.name)
        && expiration == old(expiration) && preview == old(preview)
    {
      rejection := CheckFile(file, maxSize);
      if rejection.None? {
        selectedFile := Some(file);
        customName := StripExtension(file.name);
      }
    }

    /** `handlePaste`: hands the first usable entry to `handleFile` and ignores the rest. */
    method HandlePaste(items: seq<ClipboardItem>, maxSize: int) returns (picked: Option<UploadedFile>)
      requires Valid()
      modifies this
      ensures Valid()
      ensures picked == FirstPastedImage(items)
      ensures picked.None? || CheckFile(picked.value, maxSize).Some? ==>
        selectedFile == old(selectedFile) && customName == old(customName)
        && expiration == old(expiration) && preview == old(preview)
      ensures picked.Some? && CheckFile(picked.value, maxSize).None? ==>
        selectedFile == picked && customName == StripExtension(picked.value.name)
        && expiration == old(expiration) && preview == old(preview)
    {
      picked := None;
      var i := 0;
      while i < |items|
        invariant 0 <= i <= |items|
        invariant FirstPastedImage(items) == FirstPastedImage(items[i..])
        invariant selectedFile == old(selectedFile) && customName == old(customName)
        invariant expiration == old(expiration) && preview == old(preview)
      {
        assert items[i..][1..] == items[i + 1..];
        if IsImageItem(items[i]) {
          var file := items[i].file;
          if file.Some? {
            picked := file;
            var _ := HandleFile(file.value, maxSize);
            break;
          }
        }
        i := i + 1;
      }
    }

    /** The selector's `onValueChange`: it can only report a choice it offers. */
    method SelectExpiration(choice: string)
      requires Valid() && choice in SelectorLabels
      modifies this
      ensures Valid() && expiration == choice
      ensures selectedFile == old(selectedFile) && customName == old(customName) && preview == old(preview)
    {
      expiration := choice;
    }

    /** Typing into the name field. */
    method EditName(text: string)
      requires Valid()
      modifies this
      ensures Valid() && customName == text
      ensures selectedFile == old(selectedFile) && expiration == old(expiration) && preview == old(preview)
    {
      customName := text;
    }

    /**
     * `handleUpload`: with no file nothing is sent; otherwise the form sent
     * carries the file, the choice, and the trimmed name when it is not blank.
     * `succeeded` says the route answered with a share URL and the copy to
     * the clipboard went through; then the form resets to its initial state,
     * otherwise it is kept.
     */
    method HandleUpload(succeeded: bool) returns (sent: Option<UploadForm>)
      requires Valid()
      modifies this
      ensures Valid()
      ensures old(selectedFile).None? ==> sent.None?
      ensures old(selectedFile).Some? ==>
        sent == Some(UploadForm(old(selectedFile), old(expiration), NameField(old(customName))))
      ensures old(selectedFile).Some? && succeeded ==>
        selectedFile == None && preview == None && expiration == InitialExpiration && customName == ""
      ensures old(selectedFile).None? || !succeeded ==>
        selectedFile == old(selectedFile) && customName == old(customName)
        && expiration == old(expiration) && preview == old(preview)
    {
      if selectedFile.None? {
        return None;
      }
      sent := Some(UploadForm(selectedFile, expiration, NameField(customName)));
      if succeeded {
        selectedFile := None;
        preview := None;
        expiration := InitialExpiration;
        customName := "";
      }
    }

    /** `clearSelection`: drops the file, the preview and the name; keeps the choice. */
    method ClearSelection()
      requires Valid()
      modifies this
      ensures Valid()
      ensures selectedFile == None && preview == None && customName == "" && expiration == old(expiration)
    {
      selectedFile := None;
      preview := None;
      customName := "";
    }
  }

  /**
   * What the server makes of the name the uploader sends: the trimmed name
   * when it is not blank, the original file name otherwise; and the choice
   * sent always has its own TTL.
   */
  lemma SentFormOnServer(file: UploadedFile, choice: string, customName: string, imageId: string, now: int, user: Option<string>)
    requires choice in SelectorLabels
    ensures var ttl := TtlSeconds(choice);
      var r := NewRecord(imageId, file, NameField(customName), ttl, now, user);
      && choice in TtlTable && ttl == TtlTable[choice]
      && (Blank(customName) ==> r.displayName == file.name && r.customName.None?)
      && (!Blank(customName) ==> r.displayName == Trim(customName) && r.customName == Some(Trim(customName)))
  {
  }
}

=== FILE: js_strings.dfy ===
/**
 * The few JavaScript string operations the image store's client and server
 * code rely on: `String.prototype.trim`, `indexOf` and the decimal rendering
 * of a non-negative integer inside a template literal.
 */
module JsStrings {
  import opened Wrappers

  /** JavaScript truthiness of a `string | null | undefined`: present and not empty. */
  predicate Truthy(s: Option<string>) {
    s.Some? && s.value != ""
  }

  /** The WhiteSpace and LineTerminator code points that ECMAScript's `trim` removes. */
  predicate IsWhitespace(c: char) {
    || c == ' ' || c == '\t' || c == '\n' || c == '\r'
    || c == '\U{000B}' || c == '\U{000C}' || c == '\U{00A0}' || c == '\U{FEFF}'
    || c == '\U{1680}' || ('\U{2000}' <= c <= '\U{200A}')
    || c == '\U{2028}' || c == '\U{2029}' || c == '\U{202F}' || c == '\U{205F}' || c == '\U{3000}'
  }

  /** A string made of white space only (the empty string included): `s.trim()` is falsy. */
  predicate Blank(s: string) {
    forall i :: 0 <= i < |s| ==> IsWhitespace(s[i])
  }

  /** Removes the leading white space: the result is the suffix that starts at the first non-white character. */
  function TrimStart(s: string): (r: string)
    ensures |r| <= |s| && r == s[|s| - |r|..]
    ensures r == [] || !IsWhitespace(r[0])
    ensures forall i :: 0 <= i < |s| - |r| ==> IsWhitespace(s[i])
    decreases |s|
  {
    if s != [] && IsWhitespace(s[0]) then TrimStart(s[1..]) else s
  }

  /** Removes the trailing white space: the result is the prefix that ends at the last non-white character. */
  function TrimEnd(s: string): (r: string)
    ensures |r| <= |s| && r == s[..|r|]
    ensures r == [] || !IsWhitespace(r[|r| - 1])
    ensures forall i :: |r| <= i < |s| ==> IsWhitespace(s[i])
    decreases |s|
  {
    if s != [] && IsWhitespace(s[|s| - 1]) then TrimEnd(s[..|s| - 1]) else s
  }

  /**
   * `s.trim()`: the piece of `s` left once the leading and the trailing white
   * space are cut off; it neither starts nor ends with white space.
   */
  function Trim(s: string): (r: string)
    ensures r == [] || (!IsWhitespace(r[0]) && !IsWhitespace(r[|r| - 1]))
    ensures |r| <= |s|
    ensures var a := |s| - |TrimStart(s)|;
      a + |r| <= |s| && r == s[a..a + |r|] && Blank(s[..a]) && Blank(s[a + |r|..])
  {
    TrimEnd(TrimStart(s))
  }

  /** `s.trim()` is empty exactly when `s` is blank, so a guard `if (!s.trim())` rejects exactly the blank strings. */
  lemma {:induction false} TrimEmptyIffBlank(s: string)
    ensures Trim(s) == [] <==> Blank(s)
  {
    var t := TrimStart(s);
    if Trim(s) == [] {
      assert t == [];
    } else {
      assert t != [];
      assert t[0] == s[|s| - |t|];
    }
  }

  /** Trimming twice is trimming once. */
  lemma TrimIdempotent(s: string)
    ensures Trim(Trim(s)) == Trim(s)
  {
    var r := Trim(s);
    if r != [] {
      assert TrimStart(r) == r;
      assert TrimEnd(r) == r;
    }
  }

  /** `sub` occurs in `s` starting at position `j`. */
  predicate OccursAt(s: string, sub: string, j: nat) {
    j + |sub| <= |s| && s[j..j + |sub|] == sub
  }

  /**
   * `s.indexOf(sub, from)` for a start inside the string (JavaScript clamps a
   * larger start to `|s|`; the only caller starts at 0): the first position
   * at or after `from` where `sub` occurs, or -1 when there is none.
   */
  function IndexOfFrom(s: string, sub: string, from: nat): (r: int)
    requires from <= |s|
    ensures r == -1 || (from <= r && OccursAt(s, sub, r))
    ensures r != -1 ==> forall j :: from <= j < r ==> !OccursAt(s, sub, j)
    ensures r == -1 ==> forall j :: from <= j ==> !OccursAt(s, sub, j)
    decreases |s| - from
  {
    if from + |sub| > |s| then -1
    else if s[from..from + |sub|] == sub then from
    else IndexOfFrom(s, sub, from + 1)
  }

  /** `s.indexOf(sub)`. */
  function IndexOf(s: string, sub: string): int {
    IndexOfFrom(s, sub, 0)
  }

  /** `s.indexOf(sub) !== -1` holds exactly when `sub` occurs somewhere in `s`. */
  lemma IndexOfFound(s: string, sub: string, j: nat)
    requires OccursAt(s, sub, j)
    ensures IndexOf(s, sub) != -1 && IndexOf(s, sub) <= j
  {
  }

  function Digit(d: nat): (c: char)
    requires d < 10
  {
    ('0' as int + d) as char
  }

  predicate IsDigits(s: string) {
    forall i :: 0 <= i < |s| ==> '0' <= s[i] <= '9'
  }

  /** The text JavaScript produces for a non-negative integer `n` in a template literal: decimal digits without leading zeros. */
  function Decimal(n: nat): (r: string)
    ensures |r| >= 1 && IsDigits(r)
    ensures r[0] == '0' <==> n == 0
    ensures n == 0 ==> r == "0"
  {
    if n < 10 then [Digit(n)] else Decimal(n / 10) + [Digit(n % 10)]
  }

  /** The number a string of decimal digits denotes. */
  function DecimalValue(s: string): nat
    requires IsDigits(s)
  {
    if s == [] then 0 else 10 * DecimalValue(s[..|s| - 1]) + (s[|s| - 1] as int - '0' as int)
  }

  /** Reading the rendered digits back gives the number: the rendering loses nothing. */
  lemma {:induction false} DecimalRoundTrip(n: nat)
    ensures DecimalValue(Decimal(n)) == n
  {
    if n >= 10 {
      DecimalRoundTrip(n / 10);
      var r := Decimal(n);
      assert r[..|r| - 1] == Decimal(n / 10);
    }
  }

  /** Different numbers render differently. */
  lemma DecimalInjective(m: nat, n: nat)
    requires Decimal(m) == Decimal(n)
    ensures m == n
  {
    DecimalRoundTrip(m);
    DecimalRoundTrip(n);
  }
}

=== FILE: list_route.dfy ===
/**
 * `GET /api/admin/images`: scan the metadata keys, read each one, skip those
 * that have vanished since the scan, and return the records newest first.
 */
module ListRoute {
  import opened Wrappers
  import opened Records
  import opened Redis

  datatype ListResponse = Unauthorized | Images(images: seq<ImageRecord>) | Failed

  /** `JSON.parse` of a stored value: a record's JSON gives the record back; any other text is not a record and throws. */
  function Parse(v: Value): (r: Option<ImageRecord>)
    ensures r.Some? <==> v.Json?
    ensures v.Json? ==> r == Some(v.record)
  {
    match v
    case Json(record) => Some(record)
    case Text(_) => None
  }

  /** `if (data)`: a value is used only when it is truthy, that is, not the empty string. */
  predicate TruthyValue(v: Value) {
    v != Text("")
  }

  /**
   * What the read loop produces for the scanned `keys`, reading at instant
   * `t`: the parsed records of the keys still present with a non-empty value,
   * in scan order; nothing when some such value does not parse.
   */
  function Fetch(keys: seq<string>, entries: Store, t: int): (r: Option<seq<ImageRecord>>)
    ensures r.None? <==> exists k :: k in keys && Lookup(entries, k, t).Some? && Lookup(entries, k, t).value.Text?
                                     && Lookup(entries, k, t).value.text != ""
    ensures r.Some? ==> |r.value| <= |keys|
    ensures r.Some? ==> forall x :: x in r.value ==> exists k :: k in keys && Lookup(entries, k, t) == Some(Json(x))
    ensures r.Some? ==> forall k :: k in keys && Lookup(entries, k, t).Some? && Lookup(entries, k, t).value.Json? ==>
      Lookup(entries, k, t).value.record in r.value
    decreases |keys|
  {
    if keys == [] then Some([])
    else
      var init := keys[..|keys| - 1];
      var prefix := Fetch(init, entries, t);
      assert forall k :: k in keys <==> k in init || k == keys[|keys| - 1];
      if prefix.None? then None
      else
        match Lookup(entries, keys[|keys| - 1], t)
        case None => prefix
        case Some(v) =>
          if !TruthyValue(v) then prefix
          else
            match Parse(v)
            case None => None
            case Some(record) => Some(prefix.value + [record])
  }

  /** A key whose value is the empty string is skipped like a vanished one: the list still succeeds, without it. */
  lemma EmptyValueSkipped(keys: seq<string>, entries: Store, t: int, k: string, expiresAt: int)
    requires Fetch(keys, entries, t).Some? && t <= expiresAt
    ensures Fetch(keys + [k], entries[k := Entry(Text(""), expiresAt)], t).Some?
  {
    var e := entries[k := Entry(Text(""), expiresAt)];
    forall j | j in keys + [k] && j != k
      ensures Lookup(e, j, t) == Lookup(entries, j, t) && j in keys
    {
    }
  }

  /** A scan of the metadata keys never yields a binary key, so payloads are never listed. */
  lemma ScanNeverListsPayloads(keys: seq<string>, id: string)
    requires forall k :: k in keys ==> MatchesDataGlob(k)
    ensures BinaryKey(id) !in keys
  {
    BinaryKeyNotMatched(id);
  }

  /** Newest first: upload instants never increase along the list. */
  predicate NewestFirst(s: seq<ImageRecord>) {
    forall i, j :: 0 <= i < j < |s| ==> s[i].uploadedAt >= s[j].uploadedAt
  }

  /** The first `n` cells of `a` are newest first. */
  ghost predicate SortedPrefix(a: array<ImageRecord>, n: int)
    reads a
    requires 0 <= n <= a.Length
  {
    forall p, q :: 0 <= p < q < n ==> a[p].uploadedAt >= a[q].uploadedAt
  }

  /** Exchanges two neighbouring cells. */
  method SwapNeighbours(a: array<ImageRecord>, j: int)
    requires 0 < j < a.Length
    modifies a
    ensures a[j - 1] == old(a[j]) && a[j] == old(a[j - 1])
    ensures forall k :: 0 <= k < a.Length && k != j - 1 && k != j ==> a[k] == old(a[k])
    ensures multiset(a[..]) == multiset(old(a[..]))
  {
    a[j - 1], a[j] := a[j], a[j - 1];
  }

  /** Moves `a[i]` towards the front past every older record, so that the first `i + 1` cells are newest first. */
  method InsertNewestFirst(a: array<ImageRecord>, i: int)
    requires 0 <= i < a.Length && SortedPrefix(a, i)
    modifies a
    ensures SortedPrefix(a, i + 1)
    ensures multiset(a[..]) == multiset(old(a[..]))
  {
    var j := i;
    while j > 0 && a[j - 1].uploadedAt < a[j].uploadedAt
      invariant 0 <= j <= i
      invariant forall p, q :: 0 <= p < q <= i && p != j && q != j ==> a[p].uploadedAt >= a[q].uploadedAt
      invariant forall q :: j < q <= i ==> a[j].uploadedAt >= a[q].uploadedAt
      invariant multiset(a[..]) == multiset(old(a[..]))
    {
      SwapNeighbours(a, j);
      j := j - 1;
    }
  }

  /** `images.sort((a, b) => b.uploadedAt - a.uploadedAt)`, in place: a newest-first permutation. */
  method SortNewestFirst(a: array<ImageRecord>)
    modifies a
    ensures NewestFirst(a[..])
    ensures multiset(a[..]) == multiset(old(a[..]))
  {
    var i := 0;
    while i < a.Length
      invariant 0 <= i <= a.Length
      invariant SortedPrefix(a, i)
      invariant multiset(a[..]) == multiset(old(a[..]))
    {
      InsertNewestFirst(a, i);
      i := i + 1;
    }
  }

  /**
   * `GET` with the session, the instant of the `KEYS` scan and the instant of
   * the reads that follow it. `keys` is the scan's answer, in the backend's
   * order. Without a session the store is not touched.
   */
  method ListImages(backend: Backend, session: Option<RouteSession>, now: int, readAt: int)
    returns (resp: ListResponse, ghost keys: seq<string>)
    ensures session.None? <==> resp == Unauthorized
    ensures session.Some? ==>
      && (forall k :: k in keys <==> MatchesDataGlob(k) && Lookup(backend.entries, k, now).Some?)
      && (forall i, j :: 0 <= i < j < |keys| ==> keys[i] != keys[j])
      && (resp.Failed? <==> Fetch(keys, backend.entries, readAt).None?)
    ensures resp.Images? ==>
      && Fetch(keys, backend.entries, readAt).Some?
      && multiset(resp.images) == multiset(Fetch(keys, backend.entries, readAt).value)
      && NewestFirst(resp.images)
  {
    keys := [];
    if session.None? {
      return Unauthorized, keys;
    }
    var scanned := backend.ScanDataKeys(now);
    keys := scanned;
    var images: seq<ImageRecord> := [];
    var i := 0;
    while i < |scanned|
      invariant 0 <= i <= |scanned|
      invariant Fetch(scanned[..i], backend.entries, readAt) == Some(images)
    {
      assert scanned[..i + 1][..i] == scanned[..i];
      var data := Lookup(backend.entries, scanned[i], readAt);
      if data.Some? && TruthyValue(data.value) {
        var parsed := Parse(data.value);
        if parsed.None? {
          assert scanned[i] in scanned;
          return Failed, keys;
        }
        images := images + [parsed.value];
      }
      i := i + 1;
    }
    assert scanned[..i] == scanned;
    var a := new ImageRecord[|images|](k requires 0 <= k < |images| => images[k]);
    assert a[..] == images;
    SortNewestFirst(a);
    resp := Images(a[..]);
  }

  /** No two records share an upload instant. */
  predicate DistinctInstants(s: seq<ImageRecord>) {
    forall i, j :: 0 <= i < j < |s| ==> s[i].uploadedAt != s[j].uploadedAt
  }

  /** Dropping the newest record keeps the rest newest first and distinct. */
  lemma TailKeepsOrder(s: seq<ImageRecord>)
    requires s != [] && NewestFirst(s) && DistinctInstants(s)
    ensures NewestFirst(s[1..]) && DistinctInstants(s[1..])
  {
  }

  /** The head of a newest-first list is at least as new as every record in it. */
  lemma HeadIsNewest(s: seq<ImageRecord>, x: ImageRecord)
    requires NewestFirst(s) && x in s
    ensures s[0].uploadedAt >= x.uploadedAt
  {
    var i :| 0 <= i < |s| && s[i] == x;
  }

  /** Two arrangements of the same records that start alike agree on the rest. */
  lemma SameTail(a: seq<ImageRecord>, b: seq<ImageRecord>)
    requires a != [] && b != [] && a[0] == b[0] && multiset(a) == multiset(b)
    ensures multiset(a[1..]) == multiset(b[1..])
  {
    assert a == [a[0]] + a[1..] && b == [b[0]] + b[1..];
    assert multiset(a) == multiset{a[0]} + multiset(a[1..]);
    assert multiset(b) == multiset{b[0]} + multiset(b[1..]);
    calc {
      multiset(a[1..]);
      multiset(a) - multiset{a[0]};
      multiset(b) - multiset{b[0]};
      multiset(b[1..]);
    }
  }

  /**
   * When upload instants are distinct, the newest-first order is unique: any
   * two newest-first arrangements of the same records are the same list.
   */
  lemma {:induction false} NewestFirstUnique(a: seq<ImageRecord>, b: seq<ImageRecord>)
    requires NewestFirst(a) && NewestFirst(b) && multiset(a) == multiset(b) && DistinctInstants(a)
    ensures a == b
    decreases |a|
  {
    assert |a| == |multiset(a)| == |multiset(b)| == |b|;
    if a != [] {
      assert a[0] in multiset(b) && b[0] in multiset(a);
      HeadIsNewest(a, b[0]);
      HeadIsNewest(b, a[0]);
      var i :| 0 <= i < |a| && a[i] == b[0];
      assert a[i].uploadedAt == a[0].uploadedAt;
      assert a[0] == b[0];
      SameTail(a, b);
      TailKeepsOrder(a);
      assert NewestFirst(b[1..]);
      NewestFirstUnique(a[1..], b[1..]);
      assert a == [a[0]] + a[1..] && b == [b[0]] + b[1..];
    }
  }

  /** Three uploads at instants t1 < t2 < t3 are listed as [third, second, first]. */
  lemma ThreeUploadsListedNewestFirst(r1: ImageRecord, r2: ImageRecord, r3: ImageRecord, listed: seq<ImageRecord>)
    requires r1.uploadedAt < r2.uploadedAt < r3.uploadedAt
    requires NewestFirst(listed) && multiset(listed) == multiset([r1, r2, r3])
    ensures listed == [r3, r2, r1]
  {
    assert multiset([r3, r2, r1]) == multiset([r1, r2, r3]);
    assert |listed| == 3 by { assert |multiset(listed)| == 3; }
    NewestFirstUnique([r3, r2, r1], listed);
  }
}

=== FILE: records.dfy ===
/**
 * The image metadata record and the key namespace the upload and list routes
 * share: `image:<id>:data` holds the record, `image:<id>:binary` the payload.
 */
module Records {
  import opened Wrappers

  /** The metadata record written by the upload route; instants are milliseconds since the epoch. */
  datatype ImageRecord = ImageRecord(
    id: string,
    originalName: string,
    customName: Option<string>,
    displayName: string,
    mimeType: string,
    size: nat,
    uploadedAt: int,
    uploadedBy: Option<string>,
    expiresAt: int)

  /**
   * What a route reads from `getServerSession`: only `session.user.name`. The
   * session object the callbacks build, with its user id, is `Auth.Session`.
   */
  datatype RouteSession = RouteSession(name: Option<string>)

  const DataPrefix: string := "image:"
  const DataSuffix: string := ":data"
  const BinarySuffix: string := ":binary"

  /** `image:${imageId}:data` */
  function DataKey(id: string): string {
    DataPrefix + id + DataSuffix
  }

  /** `image:${imageId}:binary` */
  function BinaryKey(id: string): string {
    DataPrefix + id + BinarySuffix
  }

  /**
   * A key matches the glob `image:*:data`: it starts with `image:`, ends with
   * `:data`, and `*` takes whatever lies in between, the empty string included.
   */
  predicate MatchesDataGlob(k: string) {
    |k| >= |DataPrefix| + |DataSuffix| && k[..|DataPrefix|] == DataPrefix && k[|k| - |DataSuffix|..] == DataSuffix
  }

  /** The id a data key carries: what the glob's `*` matched. */
  function GlobId(k: string): string
    requires MatchesDataGlob(k)
  {
    k[|DataPrefix|..|k| - |DataSuffix|]
  }

  /** Every data key matches the glob, and the glob gives back its id. */
  lemma {:induction false} DataKeyMatches(id: string)
    ensures MatchesDataGlob(DataKey(id)) && GlobId(DataKey(id)) == id
  {
    var k := DataKey(id);
    assert k[..6] == DataPrefix;
    assert k[|k| - 5..] == DataSuffix;
    assert k[6..|k| - 5] == id;
  }

  /** The glob matches exactly the data keys: every data key, and nothing else. */
  lemma {:induction false} GlobMatchesExactlyDataKeys(k: string)
    ensures MatchesDataGlob(k) <==> exists id :: k == DataKey(id)
  {
    if MatchesDataGlob(k) {
      var id := GlobId(k);
      assert k == k[..6] + k[6..|k| - 5] + k[|k| - 5..];
      assert k == DataKey(id);
    }
    if exists id :: k == DataKey(id) {
      var id :| k == DataKey(id);
      DataKeyMatches(id);
    }
  }

  /** Binary keys never match the data glob, so a scan for metadata never picks up a payload. */
  lemma {:induction false} BinaryKeyNotMatched(id: string)
    ensures !MatchesDataGlob(BinaryKey(id))
  {
    var k := BinaryKey(id);
    assert k[|k| - 5..][4] == 'y';
    assert DataSuffix[4] == 'a';
  }

  /** The two sibling keys of one image are different, and no data key is ever some image's binary key. */
  lemma {:induction false} DataKeyNeverBinaryKey(a: string, b: string)
    ensures DataKey(a) != BinaryKey(b)
  {
    var d, k := DataKey(a), BinaryKey(b);
    assert d[|d| - 1] == 'a';
    assert k[|k| - 1] == 'y';
  }

  /** Distinct ids have distinct data keys and distinct binary keys. */
  lemma {:induction false} KeysInjective(a: string, b: string)
    ensures DataKey(a) == DataKey(b) <==> a == b
    ensures BinaryKey(a) == BinaryKey(b) <==> a == b
  {
    if DataKey(a) == DataKey(b) {
      assert a == DataKey(a)[6..|DataKey(a)| - 5];
      assert b == DataKey(b)[6..|DataKey(b)| - 5];
    }
    if BinaryKey(a) == BinaryKey(b) {
      assert a == BinaryKey(a)[6..|BinaryKey(a)| - 7];
      assert b == BinaryKey(b)[6..|BinaryKey(b)| - 7];
    }
  }
}

=== FILE: redis.dfy ===
/**
 * The keyed store with expiry behind both admin routes, and the client policy
 * of `src/lib/redis.ts`: a lazily created singleton client, connect-if-not-open,
 * `setWithExpiry`, and the reconnect back-off.
 *
 * The backend is a map from key to value and expiry instant (milliseconds);
 * time is an explicit parameter. An entry is visible until its expiry instant.
 */
module Redis {
  import opened Wrappers
  import opened Records

  /**
   * A stored string. JSON text written by `JSON.stringify` of a record is kept
   * as that record; any other text (the base64 payload, or a value some other
   * writer left) is kept as plain text.
   */
  datatype Value = Json(record: ImageRecord) | Text(text: string)

  /** One key: its value and the instant at which the backend expires it. */
  datatype Entry = Entry(value: Value, expiresAt: int)

  type Store = map<string, Entry>

  /**
   * `GET key` at instant `now`: nothing for a key that is absent or has
   * expired. The backend drops a key only once its clock is past the expiry
   * instant, so the key is still served at that very millisecond.
   */
  function Lookup(entries: Store, key: string, now: int): Option<Value> {
    if key in entries && now <= entries[key].expiresAt then Some(entries[key].value) else None
  }

  /** The store after `SET key value EX ttl` issued at instant `now`. */
  function Put(entries: Store, key: string, value: Value, ttl: nat, now: int): Store {
    entries[key := Entry(value, now + ttl * 1000)]
  }

  /** After a SET, the key reads back its value up to and including `ttl` seconds later, and every other key reads as before. */
  lemma PutThenLookup(entries: Store, key: string, value: Value, ttl: nat, now: int, other: string, t: int)
    ensures Lookup(Put(entries, key, value, ttl, now), key, t) == (if t <= now + ttl * 1000 then Some(value) else None)
    ensures other != key ==> Lookup(Put(entries, key, value, ttl, now), other, t) == Lookup(entries, other, t)
  {
  }

  /** A key that has expired stays invisible at every later instant. */
  lemma ExpiryIsFinal(entries: Store, key: string, t: int, t': int)
    requires t <= t' && Lookup(entries, key, t).None?
    ensures Lookup(entries, key, t').None?
  {
  }

  // ---------------------------------------------------------------------
  // Reconnect strategy
  // ---------------------------------------------------------------------

  /** What the reconnect strategy tells the client: wait this long and retry, or give up with an error. */
  datatype Reconnect = RetryAfter(delayMs: nat) | GiveUp

  const MaxRetries: nat := 10
  const MaxDelayMs: nat := 3000

  function Min(a: int, b: int): int {
    if a <= b then a else b
  }

  /** `reconnectStrategy(retries)`: an error after ten retries, otherwise `min(retries * 100, 3000)` ms. */
  function ReconnectStrategy(retries: nat): (r: Reconnect)
    ensures r.GiveUp? <==> retries > MaxRetries
    ensures r.RetryAfter? ==> r.delayMs <= MaxDelayMs
  {
    if retries > MaxRetries then GiveUp else RetryAfter(Min(retries * 100, MaxDelayMs))
  }

  /** For every retry count the strategy accepts, the delay is `retries * 100` ms, at most one second: the 3000 ms cap never binds. */
  lemma CapNeverBinds(retries: nat)
    requires retries <= MaxRetries
    ensures ReconnectStrategy(retries) == RetryAfter(retries * 100)
    ensures ReconnectStrategy(retries).delayMs <= 1000
  {
  }

  /** The delay never shrinks as the retry count grows. */
  lemma DelayMonotone(a: nat, b: nat)
    requires a <= b && ReconnectStrategy(b).RetryAfter?
    ensures ReconnectStrategy(a).RetryAfter? && ReconnectStrategy(a).delayMs <= ReconnectStrategy(b).delayMs
  {
  }

  /** The total time the client waits across retries `0 .. n-1`; a refusal waits nothing. */
  function TotalBackoff(n: nat): nat {
    if n == 0 then 0
    else TotalBackoff(n - 1) + (match ReconnectStrategy(n - 1) case RetryAfter(d) => d case GiveUp => 0)
  }

  /** One more accepted retry adds `100 m` ms to `50 m (m - 1)`. */
  lemma BackoffStep(m: nat)
    ensures 50 * m * (m - 1) + m * 100 == 50 * (m + 1) * m
  {
    calc {
      50 * m * (m - 1) + m * 100;
      50 * (m * m) - 50 * m + 100 * m;
      50 * (m * m) + 50 * m;
      50 * (m + 1) * m;
    }
  }

  /** Up to the eleventh attempt the waits add up to `50 n (n - 1)` ms; after that nothing more is waited, 5.5 s in all. */
  lemma {:induction false} TotalBackoffClosedForm(n: nat)
    ensures n <= MaxRetries + 1 ==> TotalBackoff(n) == 50 * n * (n - 1)
    ensures n > MaxRetries + 1 ==> TotalBackoff(n) == 5500
  {
    if n > 0 {
      TotalBackoffClosedForm(n - 1);
      var m := n - 1;
      if m <= MaxRetries {
        CapNeverBinds(m);
        assert TotalBackoff(n) == TotalBackoff(m) + m * 100;
        BackoffStep(m);
      } else {
        assert ReconnectStrategy(m) == GiveUp;
        assert TotalBackoff(n) == TotalBackoff(m);
        if m == MaxRetries + 1 {
          assert TotalBackoff(m) == 50 * 11 * 10;
        }
      }
    }
  }

  // ---------------------------------------------------------------------
  // Client and module state
  // ---------------------------------------------------------------------

  /** A client handle: whether its connection is open, and how many times `connect` was called on it. */
  class Client {
    var isOpen: bool
    var connects: nat

    constructor ()
      ensures !isOpen && connects == 0
    {
      isOpen := false;
      connects := 0;
    }

    method Connect()
      modifies this
      ensures isOpen && connects == old(connects) + 1
    {
      isOpen := true;
      connects := connects + 1;
    }
  }

  /**
   * The module-level `redisClient` of `src/lib/redis.ts` together with the
   * backend's contents. `clientsCreated` counts the `createClient` calls.
   */
  class Backend {
    var redisClient: Client?
    var entries: Store
    ghost var clientsCreated: nat

    /** At most one client is ever created, and it is the one the module keeps. */
    ghost predicate Valid()
      reads this
    {
      clientsCreated <= 1 && (redisClient == null <==> clientsCreated == 0)
    }

    /** Module load: no client yet. */
    constructor (initial: Store)
      ensures Valid() && redisClient == null && entries == initial
    {
      redisClient := null;
      entries := initial;
      clientsCreated := 0;
    }

    /** `getRedisClient`: creates the client on the first call only; later calls return that same client. */
    method GetRedisClient() returns (c: Client)
      requires Valid()
      modifies this
      ensures Valid() && redisClient == c && entries == old(entries)
      ensures old(redisClient) != null ==> c == old(redisClient) && clientsCreated == old(clientsCreated)
      ensures old(redisClient) == null ==> fresh(c) && !c.isOpen && c.connects == 0
    {
      if redisClient == null {
        redisClient := new Client();
        clientsCreated := clientsCreated + 1;
      }
      c := redisClient;
    }

    /** `connectRedis`: calls `connect` only when the client is not open yet; an open client is left as it is. */
    method ConnectRedis() returns (c: Client)
      requires Valid()
      modifies this, redisClient
      ensures Valid() && redisClient == c && c.isOpen && entries == old(entries)
      ensures old(redisClient) != null ==> c == old(redisClient)
      ensures old(redisClient) == null ==> fresh(c) && c.connects == 1
      ensures old(redisClient) != null && old(redisClient.isOpen) ==> c.connects == old(redisClient.connects)
      ensures old(redisClient) != null && !old(redisClient.isOpen) ==> c.connects == old(redisClient.connects) + 1
    {
      c := GetRedisClient();
      if !c.isOpen {
        c.Connect();
      }
    }

    /**
     * `setWithExpiry(key, value, ttl)` issued at `now`. `accepted` says whether
     * the backend acknowledges the SET; when it does not, the call fails and
     * nothing is written. When it does, that one key and no other changes.
     */
    method SetWithExpiry(key: string, value: Value, ttl: nat, now: int, accepted: bool) returns (ok: bool)
      requires Valid()
      modifies this, redisClient
      ensures Valid() && redisClient != null && redisClient.isOpen
      ensures old(redisClient) != null ==> redisClient == old(redisClient)
      ensures old(redisClient) == null ==> fresh(redisClient)
      ensures ok == accepted
      ensures entries == if accepted then Put(old(entries), key, value, ttl, now) else old(entries)
    {
      var client := ConnectRedis();
      ok := accepted;
      if accepted {
        entries := Put(entries, key, value, ttl, now);
      }
    }

    /**
     * `KEYS image:*:data` at instant `now`: every live key that matches the
     * glob, each once, in an order the backend chooses.
     */
    method ScanDataKeys(now: int) returns (keys: seq<string>)
      ensures forall k :: k in keys <==> MatchesDataGlob(k) && Lookup(entries, k, now).Some?
      ensures forall i, j :: 0 <= i < j < |keys| ==> keys[i] != keys[j]
    {
      keys := [];
      var rest := entries.Keys;
      while rest != {}
        invariant rest <= entries.Keys
        invariant forall k :: k in keys <==> k in entries && k !in rest && MatchesDataGlob(k) && Lookup(entries, k, now).Some?
        invariant forall i, j :: 0 <= i < j < |keys| ==> keys[i] != keys[j]
        decreases rest
      {
        var k :| k in rest;
        if MatchesDataGlob(k) && Lookup(entries, k, now).Some? {
          keys := keys + [k];
        }
        rest := rest - {k};
      }
    }
  }
}

=== FILE: upload_route.dfy ===
/**
 * `POST /api/admin/upload`: validate the request, transcode the image, and
 * write the metadata record and the payload under two sibling keys with the
 * same expiry.
 */
module UploadRoute {
  import opened Wrappers
  import opened Records
  import opened Redis

  /** `NEXT_PUBLIC_MAX_FILE_SIZE` when the variable is unset: 10 MiB. */
  const DefaultMaxFileSize: nat := 10485760

  /** The MIME types both the server and the uploader accept. */
  const AcceptedTypes: seq<string> := ["image/jpeg", "image/png", "image/gif", "image/webp"]

  /** Every stored payload is WebP, whatever was uploaded. */
  const StoredMimeType: string := "image/webp"

  /** Where share links point when `NEXTAUTH_URL` is unset. */
  const DefaultBaseUrl: string := "http://localhost:3000"

  /** The retention labels and their TTLs in seconds. */
  const TtlTable: map<string, nat> := map[
    "2h" := 2 * 60 * 60,
    "1d" := 24 * 60 * 60,
    "3d" := 3 * 24 * 60 * 60,
    "7d" := 7 * 24 * 60 * 60,
    "1m" := 30 * 24 * 60 * 60,
    "3m" := 90 * 24 * 60 * 60,
    "6m" := 180 * 24 * 60 * 60,
    "1y" := 365 * 24 * 60 * 60]

  /** `ttlMap[expiration] || ttlMap['1d']`: an expiration outside the table gets one day. */
  function TtlSeconds(expiration: string): (ttl: nat)
    ensures ttl in TtlTable.Values && ttl > 0
    ensures expiration !in TtlTable ==> ttl == 86400
  {
    if expiration in TtlTable then TtlTable[expiration] else TtlTable["1d"]
  }

  /** The table, entry by entry, and the fallback. */
  lemma TtlTableValues(expiration: string)
    ensures TtlSeconds("2h") == 7200 && TtlSeconds("1d") == 86400
    ensures TtlSeconds("3d") == 259200 && TtlSeconds("7d") == 604800
    ensures TtlSeconds("1m") == 2592000 && TtlSeconds("3m") == 7776000
    ensures TtlSeconds("6m") == 15552000 && TtlSeconds("1y") == 31536000
    ensures TtlTable.Keys == {"2h", "1d", "3d", "7d", "1m", "3m", "6m", "1y"}
    ensures expiration !in TtlTable.Keys ==> TtlSeconds(expiration) == TtlSeconds("1d")
  {
  }

  /** No retention is shorter than two hours or longer than a year. */
  lemma TtlRange(expiration: string)
    ensures 7200 <= TtlSeconds(expiration) <= 31536000
  {
  }

  // ---------------------------------------------------------------------
  // Request
  // ---------------------------------------------------------------------

  type Byte = b: int | 0 <= b < 256

  /** A `File` form field: its name, its declared type, and its bytes (`file.size` is their count). */
  datatype UploadedFile = UploadedFile(name: string, mimeType: string, bytes: seq<Byte>) {
    function Size(): nat { |bytes| }
  }

  /** The multipart form: the `file`, `expiration` and `name` fields. */
  datatype UploadForm = UploadForm(file: Option<UploadedFile>, expiration: string, name: Option<string>)

  /** Why a request is turned away before anything is stored. */
  datatype Rejection = Unauthorized | NoFile | TooLarge | UnsupportedType

  datatype UploadResponse =
    | Rejected(reason: Rejection)
    | Uploaded(imageId: string, shareUrl: string, expiresAt: int)
    | Failed

  /** The HTTP status the route answers with. */
  function Status(r: UploadResponse): int {
    match r
    case Rejected(Unauthorized) => 401
    case Rejected(_) => 400
    case Uploaded(_, _, _) => 200
    case Failed => 500
  }

  predicate Accepted(mimeType: string) {
    mimeType in AcceptedTypes
  }

  /**
   * The checks in the route's order: session, then file present, then size,
   * then type. The first one that fails decides the answer.
   */
  function Screen(session: Option<RouteSession>, file: Option<UploadedFile>, maxSize: int): Option<Rejection> {
    if session.None? then Some(Unauthorized)
    else if file.None? then Some(NoFile)
    else if file.value.Size() > maxSize then Some(TooLarge)
    else if !Accepted(file.value.mimeType) then Some(UnsupportedType)
    else None
  }

  /**
   * Each rejection holds exactly when every earlier check passed and its own
   * failed; a file of exactly the limit passes the size check.
   */
  lemma ScreenOrder(session: Option<RouteSession>, file: Option<UploadedFile>, maxSize: int)
    ensures Screen(session, file, maxSize) == Some(Unauthorized) <==> session.None?
    ensures Screen(session, file, maxSize) == Some(NoFile) <==> session.Some? && file.None?
    ensures Screen(session, file, maxSize) == Some(TooLarge) <==>
      session.Some? && file.Some? && file.value.Size() > maxSize
    ensures Screen(session, file, maxSize) == Some(UnsupportedType) <==>
      session.Some? && file.Some? && file.value.Size() <= maxSize && !Accepted(file.value.mimeType)
    ensures Screen(session, file, maxSize) == None <==>
      session.Some? && file.Some? && file.value.Size() <= maxSize && Accepted(file.value.mimeType)
  {
  }

  /** `customName || null`: an empty name counts as no name. */
  function StoredCustomName(name: Option<string>): (r: Option<string>)
    ensures r.Some? <==> name.Some? && name.value != ""
    ensures r.Some? ==> r == name
  {
    if name.Some? && name.value != "" then name else None
  }

  /** The metadata record for a new upload at instant `now` (ms) kept for `ttl` seconds. */
  function NewRecord(id: string, file: UploadedFile, name: Option<string>, ttl: nat, now: int, uploader: Option<string>): ImageRecord {
    var custom := StoredCustomName(name);
    ImageRecord(
      id := id,
      originalName := file.name,
      customName := custom,
      displayName := if custom.Some? then custom.value else file.name,
      mimeType := StoredMimeType,
      size := file.Size() * 2,
      uploadedAt := now,
      uploadedBy := uploader,
      expiresAt := now + ttl * 1000)
  }

  /**
   * What a new record says: the display name is the custom name when one was
   * given and the original file name otherwise; the stored type is always
   * WebP; the recorded size is twice the upload's; the record expires exactly
   * `ttl` seconds after its upload instant.
   */
  lemma NewRecordFields(id: string, file: UploadedFile, name: Option<string>, ttl: nat, now: int, uploader: Option<string>)
    ensures var r := NewRecord(id, file, name, ttl, now, uploader);
      && r.id == id && r.originalName == file.name && r.uploadedBy == uploader
      && (r.customName.Some? <==> name.Some? && name.value != "")
      && (r.customName.Some? ==> r.displayName == r.customName.value == name.value)
      && (r.customName.None? ==> r.displayName == file.name)
      && r.mimeType == "image/webp"
      && r.size == 2 * |file.bytes|
      && r.expiresAt - r.uploadedAt == ttl * 1000 && r.uploadedAt == now
  {
  }

  /** `${NEXTAUTH_URL || 'http://localhost:3000'}/i/${imageId}` */
  function ShareUrl(baseUrl: Option<string>, id: string): (url: string)
    ensures var base := if baseUrl.Some? && baseUrl.value != "" then baseUrl.value else DefaultBaseUrl;
      |url| == |base| + 3 + |id| && url[..|base|] == base && url[|base|..|base| + 3] == "/i/" && url[|base| + 3..] == id
  {
    (if baseUrl.Some? && baseUrl.value != "" then baseUrl.value else DefaultBaseUrl) + "/i/" + id
  }

  // ---------------------------------------------------------------------
  // The two writes
  // ---------------------------------------------------------------------

  /**
   * The store after both writes of an upload succeeded: metadata first, then
   * payload, with the same TTL. Each `EX ttl` counts from the backend's clock
   * when that SET arrives: `dataAt` for the first and `binaryAt` for the second.
   */
  function Committed(entries: Store, id: string, record: ImageRecord, payload: string, ttl: nat, dataAt: int, binaryAt: int): Store {
    Put(Put(entries, DataKey(id), Json(record), ttl, dataAt), BinaryKey(id), Text(payload), ttl, binaryAt)
  }

  /**
   * Pairing: every image whose metadata key is stored has its binary key
   * stored too, expiring no earlier, so the payload outlives its metadata.
   */
  ghost predicate Paired(entries: Store) {
    forall id :: DataKey(id) in entries ==>
      BinaryKey(id) in entries && entries[BinaryKey(id)].expiresAt >= entries[DataKey(id)].expiresAt
  }

  /** In a paired store, whenever an image's metadata is readable its payload is readable too. */
  lemma PairedMetadataImpliesPayload(entries: Store, id: string, t: int)
    requires Paired(entries) && Lookup(entries, DataKey(id), t).Some?
    ensures Lookup(entries, BinaryKey(id), t).Some?
  {
  }

  /**
   * A completed upload adds exactly the two sibling keys: each readable up to
   * and including `ttl` seconds after its own SET arrived, and gone after. Every
   * other key reads as before.
   */
  lemma {:induction false} CommittedReadBack(entries: Store, id: string, record: ImageRecord, payload: string, ttl: nat,
                                             dataAt: int, binaryAt: int, t: int, other: string)
    ensures var s := Committed(entries, id, record, payload, ttl, dataAt, binaryAt);
      && Lookup(s, DataKey(id), t) == (if t <= dataAt + ttl * 1000 then Some(Json(record)) else None)
      && Lookup(s, BinaryKey(id), t) == (if t <= binaryAt + ttl * 1000 then Some(Text(payload)) else None)
      && (other != DataKey(id) && other != BinaryKey(id) ==> Lookup(s, other, t) == Lookup(entries, other, t))
      && s.Keys == entries.Keys + {DataKey(id), BinaryKey(id)}
  {
    DataKeyNeverBinaryKey(id, id);
  }

  /**
   * A completed upload keeps a paired store paired, because the payload's
   * SET arrives no earlier than the metadata's.
   */
  lemma {:induction false} CommittedKeepsPairing(entries: Store, id: string, record: ImageRecord, payload: string, ttl: nat,
                                                 dataAt: int, binaryAt: int)
    requires Paired(entries) && dataAt <= binaryAt
    ensures Paired(Committed(entries, id, record, payload, ttl, dataAt, binaryAt))
  {
    var s := Committed(entries, id, record, payload, ttl, dataAt, binaryAt);
    forall j | DataKey(j) in s
      ensures BinaryKey(j) in s && s[BinaryKey(j)].expiresAt >= s[DataKey(j)].expiresAt
    {
      DataKeyNeverBinaryKey(j, id);
      DataKeyNeverBinaryKey(id, j);
      KeysInjective(j, id);
      if j != id {
        assert s[DataKey(j)] == entries[DataKey(j)];
        assert s[BinaryKey(j)] == entries[BinaryKey(j)];
      }
    }
  }

  /**
   * The two keys of one upload do not expire together: the payload stays
   * readable for `binaryAt - dataAt` ms after its metadata has gone.
   */
  lemma {:induction false} PayloadOutlivesMetadata(entries: Store, id: string, record: ImageRecord, payload: string, ttl: nat,
                                                   dataAt: int, binaryAt: int, t: int)
    requires dataAt <= binaryAt && dataAt + ttl * 1000 < t <= binaryAt + ttl * 1000
    ensures var s := Committed(entries, id, record, payload, ttl, dataAt, binaryAt);
      Lookup(s, DataKey(id), t).None? && Lookup(s, BinaryKey(id), t) == Some(Text(payload))
  {
    CommittedReadBack(entries, id, record, payload, ttl, dataAt, binaryAt, t, id);
  }

  /**
   * The route writes metadata before payload and does not roll back: when the
   * second write fails on a fresh id, the store is left with a readable
   * metadata record whose payload does not exist.
   */
  lemma {:induction false} FailedPayloadWriteBreaksPairing(entries: Store, id: string, record: ImageRecord, ttl: nat, dataAt: int)
    requires BinaryKey(id) !in entries
    ensures var s := Put(entries, DataKey(id), Json(record), ttl, dataAt);
      && !Paired(s)
      && Lookup(s, DataKey(id), dataAt).Some?
      && Lookup(s, BinaryKey(id), dataAt).None?
  {
    DataKeyNeverBinaryKey(id, id);
    var s := Put(entries, DataKey(id), Json(record), ttl, dataAt);
    assert DataKey(id) in s && BinaryKey(id) !in s;
  }

  /**
   * `POST` with the session `getServerSession` returned, the parsed form, the
   * size limit, the id `nanoid(10)` produced, the transcoder (nothing when
   * `sharp` throws), the base64 encoder, the route's clock `now`, the
   * backend's clock when each SET arrives, `NEXTAUTH_URL`, and whether the
   * backend acknowledges each of the two writes.
   */
  method Post(backend: Backend, session: Option<RouteSession>, form: UploadForm, maxSize: int, imageId: string,
              transcode: seq<Byte> -> Option<seq<Byte>>, base64: seq<Byte> -> string,
              now: int, dataAt: int, binaryAt: int, baseUrl: Option<string>, dataWriteAcked: bool, binaryWriteAcked: bool)
    returns (resp: UploadResponse)
    requires backend.Valid()
    modifies backend, backend.redisClient
    ensures backend.Valid()
    ensures Status(resp) == 401 <==> session.None?
    ensures Status(resp) == 400 <==> session.Some? && Screen(session, form.file, maxSize).Some?
    ensures Status(resp) == 200 <==>
      Screen(session, form.file, maxSize).None? && transcode(form.file.value.bytes).Some? && dataWriteAcked && binaryWriteAcked
    ensures Screen(session, form.file, maxSize).Some? ==>
      resp == Rejected(Screen(session, form.file, maxSize).value)
      && backend.entries == old(backend.entries) && backend.redisClient == old(backend.redisClient)
    ensures Screen(session, form.file, maxSize).None? && transcode(form.file.value.bytes).None? ==>
      resp == Failed && backend.entries == old(backend.entries)
    ensures Screen(session, form.file, maxSize).None? && transcode(form.file.value.bytes).Some? ==>
      var ttl := TtlSeconds(form.expiration);
      var record := NewRecord(imageId, form.file.value, form.name, ttl, now, session.value.name);
      var payload := base64(transcode(form.file.value.bytes).value);
      && (!dataWriteAcked ==> resp == Failed && backend.entries == old(backend.entries))
      && (dataWriteAcked && !binaryWriteAcked ==>
            resp == Failed && backend.entries == Put(old(backend.entries), DataKey(imageId), Json(record), ttl, dataAt))
      && (dataWriteAcked && binaryWriteAcked ==>
            resp == Uploaded(imageId, ShareUrl(baseUrl, imageId), record.expiresAt)
            && backend.entries == Committed(old(backend.entries), imageId, record, payload, ttl, dataAt, binaryAt))
  {
    var rejection := Screen(session, form.file, maxSize);
    if rejection.Some? {
      return Rejected(rejection.value);
    }
    var file := form.file.value;
    var processed := transcode(file.bytes);
    if processed.None? {
      return Failed;
    }
    var ttl := TtlSeconds(form.expiration);
    var record := NewRecord(imageId, file, form.name, ttl, now, session.value.name);
    var ok := backend.SetWithExpiry(DataKey(imageId), Json(record), ttl, dataAt, dataWriteAcked);
    if !ok {
      return Failed;
    }
    ok := backend.SetWithExpiry(BinaryKey(imageId), Text(base64(processed.value)), ttl, binaryAt, binaryWriteAcked);
    if !ok {
      return Failed;
    }
    resp := Uploaded(imageId, ShareUrl(baseUrl, imageId), record.expiresAt);
  }
}

=== FILE: wrappers.dfy ===
/** The optional value used across the model for JavaScript's `null`/`undefined`. */
module Wrappers {
  datatype Option<+T> = None | Some(value: T)
}
